=== FILE: README.md ===
# A Dafny model of the Agentic Framework API agent core

This project models the core of a small question-answering agent built on a
chat-completion model with function calling:

- `ConversationSession`: a bounded message log per session. Every append is
  followed by a trim that keeps all system messages and the most recent other
  messages. The log is projected to the model's wire format.
- The `Agent` session store: get-or-create, history lookup, clear and list.
- The `ask` loop. It appends the question and calls the model. While the model
  asks for tools, it runs each requested call through the tool registry and
  appends an assistant message plus one tool message per call. It stops at the
  first final response, whose text becomes the answer. Usage is summed over
  every round.
- `ToolRegistry`, an insertion-ordered name-to-tool map, and the three
  built-in tools: transaction status, weather lookup, and a calculator with a
  character allow-list in front of an evaluator.
- The data types of `src/models.py`.

The model is functional: every entity is an immutable datatype, and every
operation is a pure function. The one exception is `ListSessions`, a method
with a loop.

Values the program obtains from outside are parameters:

- The language model is a finite script of responses, at least one of them
  final.
- `json.loads`/`json.dumps` form a `Codec` parameter. Its `dumps` may refuse a value, as `json.dumps` raises on one it cannot serialize.
- Python's `eval` behind the calculator's gate is a parameter
  `eval: string -> EvalResult`.
- The clock is one `now: nat` reading per operation.
- The generated UUID is a `freshId` that is not yet a key of the store.

Modules (one concept each):

| module | file | models |
|---|---|---|
| `Base`, `Json` | base.dfy | `Option`; JSON values, keyword arguments, the codec |
| `Models` | models.dfy | src/models.py |
| `Conversation` | conversation.dfy | `ConversationSession` |
| `BuiltinTools` | tools.dfy | the three built-in tools |
| `ToolRegistry` | registry.dfy | `ToolRegistry` and the default registry |
| `SessionStore` | store.dfy | the agent's session map |
| `Orchestration` | agent.dfy | `Agent.ask` |

The trim is modelled exactly as written, including Python's slice semantics.
Let `s` be the number of system messages and `H` the configured maximum.

- When `H > s`, the log is cut back to `H` messages.
- When `H == s`, the slice `others[-0:]` keeps every message, so the log stays
  over the bound (`TrimAtSystemCountKeepsAll`, `TrimEdgeWitness`).
- When `H < s`, the slice drops the oldest `s - H` other messages instead of
  keeping the newest.

The bound is proved to hold whenever the system messages leave room
(`TrimBound`, `AppendAllBounded`, `AskKeepsBound`).

## Model

| member | source | states |
|---|---|---|
| Models.ParseRole | src/models.py:10 | a role string is accepted iff it is one of system, user, assistant, tool; the accepted role prints back as that string |
| Models.RoleNameRoundTrip | src/models.py:10 | every role survives printing and parsing |
| Models.BareMessage | src/models.py:8-15 | a message built from a role alone has every optional field absent |
| Models.DefaultRequest | src/models.py:18-26 | a request built from a question alone has tools enabled and every optional field absent |
| Models.Validate | src/models.py:20-23 | each field is reported iff its constraint fails (question length at least 1, temperature in [0, 2], max_tokens > 0); no report iff the request is valid |
| Models.DefaultRequestValidIff | src/models.py:18-26 | a request with only a question is valid iff the question is non-empty |
| Models.NewAnswerResponse | src/models.py:36-42 | a response built without tool calls carries an empty tool-call list and the given fields |
| Models.ZeroUsageUnit | src/agent.py:163 | the zero usage record is the identity of usage addition |
| Conversation.PartitionLength | src/agent.py:49-50 | the system and non-system filters split the log: their lengths add up to the log's |
| Conversation.FiltersAppend | src/agent.py:49-50 | both filters distribute over concatenation, so they keep relative order |
| Conversation.SystemMessagesAreSystem | src/agent.py:49 | the system filter yields only system messages |
| Conversation.OtherMessagesAreOthers | src/agent.py:50 | the other filter yields only non-system messages |
| Conversation.FirstSystemLeads | src/agent.py:49 | a log that starts with a system message keeps it first among its system messages |
| Conversation.SliceFrom | src/agent.py:53 | Python's `a[start:]`: always a suffix; a non-negative start drops up to `start` elements; a negative start keeps up to `-start` elements |
| Conversation.TrimSplits | src/agent.py:47-53 | the trimmed log is the system messages followed by the kept slice, and filtering it gives back each part |
| Conversation.TrimKeepsSystemMessages | src/agent.py:48-53 | trimming keeps every system message, in order, ahead of every kept non-system message |
| Conversation.TrimKeepsRecentOthers | src/agent.py:52-53 | the kept non-system messages are the most recent ones; their count is min(H - s, #others) when H > s, all of them when H == s, and all but the first s - H when H < s |
| Conversation.TrimBound | src/agent.py:46-53 | when the system messages leave room, a trimmed log has at most H messages |
| Conversation.TrimAtSystemCountKeepsAll | src/agent.py:53 | when H equals the number of system messages, trimming removes nothing |
| Conversation.TrimEdgeWitness | src/agent.py:53 | concrete case: with H = 1, a system prompt and two questions stay three messages |
| Conversation.Trim | src/agent.py:47-53 | the trim never lengthens the log; what it keeps is stated by TrimSplits, TrimKeepsSystemMessages and TrimKeepsRecentOthers |
| Conversation.AddMessage | src/agent.py:26-53 | the session keeps its id and creation time and records the new update time; below the bound the stamped message is appended; otherwise the log is the system messages of the extended log followed by a suffix of its other messages, of length min(H - s, #others) when H > s, all of them when H == s, and all but the first s - H when H < s |
| Conversation.AddMessageKeepsFirstSystem | src/agent.py:43-53 | a leading system message stays first after an append |
| Conversation.AddMessageBounded | src/agent.py:43-53 | appending a non-system message to a log within the bound keeps it within the bound and keeps its system messages |
| Conversation.AppendAllConcat | src/agent.py:26-53 | appending two batches one after the other is the same as appending their concatenation |
| Conversation.AppendAfterFirst | src/agent.py:26-53 | appending one message and then a batch is appending the batch with that message in front |
| Conversation.AppendAllNoTrim | src/agent.py:43-47 | while nothing overflows, a batch of appends is plain concatenation of the stamped messages |
| Conversation.AppendAllBounded | src/agent.py:43-53 | any batch of non-system appends keeps a log within the bound and keeps its system messages |
| Conversation.AppendAllKeepsFirstSystem | src/agent.py:43-53 | a leading system message stays at index 0 through any batch of appends |
| Conversation.NewSession | src/agent.py:16-24 | a new session has the id and the clock reading; it holds one system message with the prompt iff the prompt is present and non-empty, and is empty otherwise |
| Conversation.ToWire | src/agent.py:58-70 | the role is always sent; the content is sent iff it is not None (empty text included); tool calls, call id and name are sent iff present and non-empty |
| Conversation.WireMessages | src/agent.py:55-71 | one wire record per message, in log order |
| Conversation.WireRoundTrip | src/agent.py:55-71 | reading a wire record back restores the message without its timestamp iff no field was present but empty |
| Conversation.WireRoundTripBack | src/agent.py:55-71 | a wire record is the image of its read-back iff none of its optional fields is present but empty |
| Conversation.WireOfPlainMessage | src/agent.py:58-62 | a message with a role and a text goes on the wire as exactly that role and text |
| Conversation.ToHistory | src/agent.py:73-80 | the history record carries the session's id, log, creation time and update time unchanged |
| BuiltinTools.BindError | src/tools.py:67 | keyword binding succeeds iff every keyword is a parameter and every required parameter is given |
| BuiltinTools.CheckTransactionStatus | src/tools.py:74-90 | the id is echoed; a known id returns its status, amount and date; any other id reports not_found with a message naming it; the status is not_found iff the id is unknown |
| BuiltinTools.TransactionTableIds | src/tools.py:74-78 | exactly TXN-001, TXN-002 and TXN-003 are found |
| BuiltinTools.CheckAnyTransactionStatus | src/tools.py:80-90 | a string id behaves as above; a list or object id raises "unhashable type" naming its Python type; any other value is echoed as not_found with a message naming it |
| BuiltinTools.OnlyTableIdsFound | src/tools.py:74-90 | the reported status is other than not_found iff the id is a string in the table |
| BuiltinTools.TransactionAction | src/tools.py:67-90 | a keyword-binding failure raises; with exactly transaction_id given, the lookup runs on that value, whatever its type |
| BuiltinTools.Lower | src/tools.py:141 | lower-casing keeps the length and maps each character |
| BuiltinTools.LowerIdempotent | src/tools.py:141 | lower-casing twice is lower-casing once |
| BuiltinTools.FahrenheitInTenths | src/tools.py:147-148 | C*9/5+32 of an integer reading is a whole number of tenths |
| BuiltinTools.RoundTenthExact | src/tools.py:152 | rounding to one decimal leaves a value with one decimal unchanged |
| BuiltinTools.ReportedTemperatureExact | src/tools.py:146-152 | the reported temperature is C*9/5+32 for unit fahrenheit and C itself for any other unit |
| BuiltinTools.GetWeather | src/tools.py:127-161 | the location is echoed as given; an error is reported iff its lower-case form is not in the table; a known location reports the exact five fields |
| BuiltinTools.WeatherCaseInsensitive | src/tools.py:141-142 | two locations equal up to case give the same weather apart from the echoed name |
| BuiltinTools.LondonInFahrenheit | src/tools.py:134-156 | London is reported as 50 degrees Fahrenheit |
| BuiltinTools.WeatherAction | src/tools.py:127-161 | a keyword-binding failure raises; unit defaults to celsius; a string location runs the lookup; any other location raises because it has no `lower` |
| BuiltinTools.Calculate | src/tools.py:192-216 | the expression is echoed; a character outside the allow-list gives the invalid-characters error; otherwise the evaluator's value is the result and its failure becomes a calculation error |
| BuiltinTools.CalculateGateIgnoresEvaluator | src/tools.py:200-205 | a rejected expression never reaches the evaluator: the answer is the same for any evaluator and has no result |
| BuiltinTools.ItemMembership | src/tools.py:200-201 | an item passes the allow-list test iff it is a one-character string of an allowed character; the test raises iff the item is unhashable (a list or a dict) |
| BuiltinTools.GateItems | src/tools.py:200-205 | the gate passes iff every item passes; otherwise the first item that fails decides: a hashable one rejects, an unhashable one raises |
| BuiltinTools.CalculateAny | src/tools.py:192-216 | a string expression behaves as above; any other value is echoed with an error and no result: a list follows its gate (invalid characters, unhashable item, or eval's type error once it passes), a dict is tested by its keys, and a null, boolean or number is "not iterable" |
| BuiltinTools.NonStringNeverEvaluated | src/tools.py:198-216 | a non-string expression never reaches the evaluator and never yields a result |
| BuiltinTools.NonStringRejected | src/tools.py:200-205 | `["x"]`, `[5]` and `{"x": 1}` are answered with the invalid-characters error |
| BuiltinTools.ListOfDigitReachesEval | src/tools.py:200-216 | `["1"]` passes the gate and fails in eval with its type error |
| BuiltinTools.NestedListUnhashable | src/tools.py:200-216 | `[[1]]` fails on hashing its item, reported as a calculation error |
| BuiltinTools.CalculateAction | src/tools.py:192-216 | a keyword-binding failure raises; with exactly expression given, the answer is returned and never raises |
| ToolRegistry.Find | src/tools.py:234-236 | -1 iff no tool has the name; otherwise the first position holding it |
| ToolRegistry.GetTool | src/tools.py:234-236 | a tool is found iff its name is among the registry's names, and the tool found has that name |
| ToolRegistry.GetToolSchemas | src/tools.py:242-244 | one schema per tool, position by position with `get_all_tools`, each naming its tool |
| ToolRegistry.GetToolNames | src/tools.py:246-248 | one name per tool, position by position with `get_all_tools` |
| ToolRegistry.ListingsAgree | src/tools.py:238-248 | the tool, schema and name listings have the same length and line up position by position |
| ToolRegistry.GetAllTools | src/tools.py:238-240 | one entry per registered tool; each entry resolving to itself is AllToolsRetrievable, and the registration order is RegisterListing and UnregisterListing |
| ToolRegistry.AllToolsRetrievable | src/tools.py:234-240 | every tool that get_all_tools lists is the one its name resolves to |
| ToolRegistry.Register | src/tools.py:225-227 | the name resolves to the new tool; the registry grows by one iff the name was new |
| ToolRegistry.Unregister | src/tools.py:229-232 | an absent name changes nothing; a present one shrinks the registry by one and no longer resolves |
| ToolRegistry.RegisterLookup | src/tools.py:225-227 | after register, the name resolves to the new tool, every other name resolves as before, and names stay distinct |
| ToolRegistry.RegisterPlacement | src/tools.py:225-227 | a new name is appended last; an existing name keeps its position, and no other position changes |
| ToolRegistry.UnregisterLookup | src/tools.py:229-232 | after unregister, the name does not resolve, every other name resolves as before, and names stay distinct |
| ToolRegistry.UnregisterPlacement | src/tools.py:229-232 | an absent name leaves the registry unchanged; a present one is cut out and the rest keep their order |
| ToolRegistry.RegisterListing | src/tools.py:225-248 | registering a new name appends the tool, its name and its schema to the end of `get_all_tools`, `get_tool_names` and `get_tool_schemas`; registering a known name leaves the names as they are and replaces the tool and its schema at the name's position |
| ToolRegistry.UnregisterListing | src/tools.py:229-248 | unregistering an absent name changes no listing; a registered name's entry is cut out of all three listings at its position, the others keeping their order |
| ToolRegistry.ValidIffDistinctNames | src/tools.py:223-248 | the registry's invariant holds exactly when `get_tool_names` repeats no name |
| ToolRegistry.ExecuteTool | src/tools.py:250-255 | arguments named `tool_name` or `self` collide with the method's own parameters and raise "got multiple values for argument"; otherwise an unregistered name raises "Tool '<name>' not found in registry" and a registered one runs that tool's action |
| ToolRegistry.UnregisteredDispatchFails | src/tools.py:229-255 | dispatching a name right after unregistering it raises the not-found error, or the collision error when the arguments name `tool_name` or `self` |
| ToolRegistry.DefaultRegistry | src/tools.py:258-262 | the default registry has distinct names, in the order check_transaction_status, get_weather, calculate |
| ToolRegistry.DefaultRegistryRegistered | src/tools.py:258-262 | the default registry is what the three register calls, in that order, make from an empty registry |
| ToolRegistry.GetToolAt | src/tools.py:234-236 | in a registry with distinct names, each tool's name resolves to that tool |
| ToolRegistry.DefaultDispatch | src/tools.py:250-262 | each default name dispatches to its built-in action |
| ToolRegistry.CalculateDispatch | src/tools.py:250-262 | in the default registry, `calculate` called with just an expression string returns the calculator's answer for it |
| SessionStore.GetOrCreate | src/agent.py:91-104 | the id resolved to is in the store; every session stays filed under its own id |
| SessionStore.GetOrCreateCases | src/agent.py:97-104 | a known, non-empty given id leaves the store unchanged; otherwise exactly one key is added (the given id, else the fresh one), holding a new session with the prompt, and every other session is unchanged |
| SessionStore.GetOrCreateIdempotent | src/agent.py:97-98 | looking up the id just resolved changes nothing |
| SessionStore.GetSessionHistory | src/agent.py:249-253 | absent iff the id is unknown; otherwise that session's full snapshot: its id, log, creation time and update time |
| SessionStore.ClearSession | src/agent.py:255-260 | reports true iff the id was present; exactly that key is removed and nothing else changes |
| SessionStore.ListSessions | src/agent.py:262-264 | every session id exactly once |
| Orchestration.FirstFinal | src/agent.py:187 | the index of the first response that does not ask for tools; every earlier one asks for tools |
| Orchestration.FilterSchemas | src/agent.py:152-155 | the filtered list is no longer than the input and holds only input schemas the allow-list admits |
| Orchestration.Consumed | src/agent.py:165-247 | the rounds the loop runs: a non-empty prefix of the script, element by element, whose last response is final and all others ask for tools |
| Orchestration.FilterSchemasMembers | src/agent.py:150-155 | filtering keeps exactly the schemas the allow-list admits |
| Orchestration.FilterSchemasAppend | src/agent.py:152-155 | filtering distributes over concatenation, so registry order is kept |
| Orchestration.FilterSchemasNoList | src/agent.py:150 | an absent or empty allow-list filters nothing |
| Orchestration.SelectTools | src/agent.py:146-157 | no tools when disabled; otherwise the offered list is exactly the filtered registry list (same order and multiplicity), and no tools are offered only when that list is empty |
| Orchestration.DefaultSchemas | src/tools.py:242-262 | the default registry advertises the three built-in schemas in registration order |
| Orchestration.CalculatorFilter | src/agent.py:152-155 | the allow-list ["calculate"] keeps only the calculator among the built-in schemas |
| Orchestration.OnlyCalculatorOffered | src/agent.py:146-157 | with the default registry, the allow-list ["calculate"] offers exactly the calculator |
| Orchestration.RecordFallbacks | src/agent.py:207-227 | failures are recorded, not raised: unparseable arguments run as no arguments, arguments named `tool_name` or `self` record the collision error, an unknown tool records the not-found error, a raised exception records its error payload, and so does a returned value `json.dumps` refuses; a value it accepts is recorded as returned, and whenever the recorded result serializes the tool message carries its serialization |
| Orchestration.ExecuteCall | src/agent.py:214-220 | the `try` around one call: the tool's value is kept when `json.dumps` accepts it; a raised exception, or a value `json.dumps` refuses, leaves the error payload with that exception's message; whenever the kept result serializes, the text sent back is its serialization |
| Orchestration.DumpFailureRecorded | src/agent.py:214-227 | a returned value that `json.dumps` refuses is recorded, and sent back to the model, as the error payload carrying the serialization error |
| Orchestration.UnserializableCalculationRecorded | src/agent.py:207-227 | a `calculate` call whose answer `json.dumps` refuses is recorded and answered with the error payload; the request does not fail |
| Orchestration.DotsReachEvaluator | src/tools.py:200-211 | `"..."` passes the calculator's character gate, so whatever the evaluator makes of it (Python's Ellipsis, which JSON cannot hold) is returned as the result |
| Orchestration.Records | src/agent.py:207-227 | one record per requested call, in order |
| Orchestration.ToolMessages | src/agent.py:229-235 | one tool message per requested call, in order |
| Orchestration.RoundMessages | src/agent.py:187-245 | a tool round adds the assistant message and one message per call; a final round adds one assistant message; the first added message is the assistant's, and it carries tool calls iff the round asks for tools |
| Orchestration.RoundShape | src/agent.py:187-245 | a tool round appends the assistant's call request and then one tool message per call with matching id and name; a final round appends the answer; no round appends a system message |
| Orchestration.TranscriptNoSystem | src/agent.py:187-245 | the loop never appends a system message |
| Orchestration.Rounds | src/agent.py:165-247 | over the consumed rounds: usage is summed, every requested call is recorded in order, the session advances by the transcript, one request per round with fixed settings, the requests appended are exactly the reference list `ExpectedRequests` (each carrying the log as it stood before its round), and the answer comes from the final response |
| Orchestration.TotalUsageAppend | src/agent.py:178-181 | usage is additive over consecutive stretches of rounds |
| Orchestration.RecordsAppend | src/agent.py:222-227 | recording two stretches of calls is recording their concatenation |
| Orchestration.ExpectedRequests | src/agent.py:165-176 | the reference request list: one request per round, the first built from the log as it stands when the loop starts |
| Orchestration.ExpectedRequestsAt | src/agent.py:165-245 | request k of the reference list is built from the log advanced by the messages of the first k rounds |
| Orchestration.ConverseRequests | src/agent.py:140-247 | the requests of an exchange are exactly the reference list, started from the log with the question added |
| Orchestration.ConverseRequestAt | src/agent.py:140-247 | request k of an exchange carries the wire form of the log advanced by the question and the first k rounds |
| Orchestration.Converse | src/agent.py:140-247 | on a resolved session, the session ends advanced by the question and the transcript; usage, records and answer are as in the loop; the first request already carries the question |
| Orchestration.Ask | src/agent.py:106-247 | the answer is the final response's text (empty if none), the session id is the one resolved, usage is summed over the rounds, and every requested call is recorded in order |
| Orchestration.AskStore | src/agent.py:134-247 | the store keeps the resolved keys; the resolved session is advanced by exactly the question and the transcript; no other session changes |
| Orchestration.AskRequests | src/agent.py:142-176 | one request per round; the first carries the log with the question; every request names the configured model and carries the selected tools and the effective temperature and response cap (the request's own, else the default) |
| Orchestration.AskRequestHistory | src/agent.py:106-247 | every request `ask` sends carries the wire form of the resolved session's log advanced by the question and every earlier round |
| Orchestration.ExecutedFollowsRequests | src/agent.py:207-227 | the executed-call list has one entry per requested call, named after it, in the model's order |
| Orchestration.DirectAnswer | src/agent.py:240-247 | a final first response means no tool calls, a single round's usage, and the question plus one answer appended |
| Orchestration.AskWithoutTrimming | src/agent.py:140-245 | while the log has room, it ends as before followed by the stamped question and transcript |
| Orchestration.QuestionAndRepliesBounded | src/agent.py:43-53 | a question followed by non-system replies keeps the bound, the system messages and a leading system message |
| Orchestration.ConverseKeepsBound | src/agent.py:140-245 | an exchange on a session within the bound keeps it within the bound, keeps its system messages and keeps a leading system message first |
| Orchestration.AskKeepsBound | src/agent.py:106-247 | the same across a whole `ask` on the resolved session |
| Orchestration.NewSessionKeepsDefaultBound | src/config.py:19 | with the configured history limit of 10, an `ask` on a new session leaves at most ten messages, and a non-empty system prompt stays first |
| Orchestration.AskKeepsStoreWellKeyed | src/agent.py:91-104 | every session stays filed under its own id across an `ask` |

## Left out

- The language-model client (`AsyncOpenAI`), async execution and concurrency are out of scope. The model's responses are a finite script, and each request the loop would send is returned alongside the answer.
- An exception from the model client, or a script with no final response, is not modelled. The source would loop forever or propagate the exception.
- `json.loads` and `json.dumps` are a codec parameter. A payload that parses to a non-object is treated like an unparseable one: it runs with no arguments. In the source, such a value fails later, when the `ToolCall` record is validated.
- Python's `eval` behind the calculator's gate is a parameter. The arithmetic it performs is not modelled.
- Python values that JSON cannot hold, such as the Ellipsis that `calculate("...")` returns or an integer with more digits than Python will convert to text, are whatever `Value` the evaluator parameter returns. Whether `json.dumps` refuses such a value is decided by the codec parameter (`UnserializableCalculationRecorded`, `DotsReachEvaluator`).
- Orchestration.ErrorText: a codec that refuses an `{"error": text}` payload yields empty text. `json.dumps` always accepts such a payload, a dictionary holding one string, so the case does not arise in the source.
- JSON numbers are exact reals, so the int/float distinction of `round(temp, 1)` and of the amounts is lost.
- `datetime.now` is one `now` reading per operation. The source reads the clock separately for `created_at`, `updated_at` and each message.
- The UUID generator is the `freshId` parameter, required not to be a key of the store already.
- The text of Python's keyword-binding errors (unexpected or missing keyword arguments) is paraphrased. The registry's not-found message, the argument-collision message, "unhashable type", "object has no attribute 'lower'", "object is not iterable" and eval's type error follow Python's wording.
- ToolRegistry.ExecuteTool: when the arguments name both `tool_name` and `self`, the model reports `tool_name`. Python reports whichever of the two comes first in the argument dictionary, and the model's arguments are an unordered map.
- BuiltinTools.TypeName: a JSON number is `int` when it is whole and `float` otherwise. `json.loads` decides by the number's spelling (`1.0` is a float), which the model's exact reals do not keep.
- BuiltinTools.CheckAnyTransactionStatus: a number used as an id is rendered in the not-found message as its integer text when it is whole and as `<number>` otherwise. Python prints every number `json.loads` reads as a float in float form, whole ones included: `1.0`, `2e3` and `-0.0` print as "1.0", "2000.0" and "-0.0", where the model prints "1", "2000" and "0". Only numbers spelled as integers print the same.
- BuiltinTools.Lower: ASCII lower-casing only. Python's full Unicode `str.lower` is not modelled.
- A custom tool's `get_schema` is modelled as derived from the tool's name, description and parameter schema.
- `Message.tool_calls` holds requested-call records (id, type, function name, argument text), not arbitrary dictionaries.
- Conversation.SystemMessages and Conversation.OtherMessages: their contracts bound only the length. What they select is stated by `SystemMessagesAreSystem`, `OtherMessagesAreOthers`, `PartitionLength` and `FiltersAppend`.
- Conversation.Trim: its own contract only bounds the length. What it keeps is stated by `TrimSplits`, `TrimKeepsSystemMessages` and `TrimKeepsRecentOthers`.
- Orchestration.FilterSchemas: its own contract bounds the length and the members. Membership in both directions and order are stated by `FilterSchemasMembers` and `FilterSchemasAppend`.
- Orchestration.ExpectedRequests: its own contract fixes the length and the first request. The later requests are stated by `ExpectedRequestsAt`.
- ToolRegistry.GetAllTools: its own contract fixes only the length. What each entry is is stated by `AllToolsRetrievable` and `ListingsAgree`. The registration order is stated by `RegisterListing` and `UnregisterListing`.
- ToolRegistry.GetToolSchemas and ToolRegistry.GetToolNames: their own contracts line them up with `get_all_tools` only. How `register` and `unregister` change them, and so their registration order, is stated by `RegisterListing` and `UnregisterListing`.
- SessionStore.ListSessions: the ids come out in an unspecified order. The source lists them in creation order, the insertion order of its dictionary. The model's store is a map, which keeps no order.
- ToolRegistry.UnregisterLookup: requires distinct names. That is the dictionary-key invariant every registry built by `register` keeps (`RegisterLookup`).
- src/main.py (the HTTP layer), src/config.py loading, the example clients, `HealthResponse`, `ToolInfo` and `ToolsListResponse` are not part of this model. The model name and the three agent constants appear as `DefaultSettings` (src/config.py:11, 19-21). The history limit is used by `NewSessionKeepsDefaultBound`.

=== FILE: agent.dfy ===
/**
 * `Agent.ask` of src/agent.py: the tool-calling loop.  The language model
 * is a scripted, finite sequence of responses, some of which is final;
 * the loop consumes responses until the first final one.
 */
module Orchestration {
  import opened Base
  import opened Json
  import opened Models
  import opened Conversation
  import opened SessionStore
  import opened BuiltinTools
  import opened ToolRegistry

  // ---------------------------------------------------------------------
  // The model call
  // ---------------------------------------------------------------------

  /** One model response: finish reason, optional text, requested tool calls (empty for none) and the round's usage. */
  datatype ModelResponse = ModelResponse(finishReason: string, content: Option<string>, toolCalls: seq<RequestedCall>, usage: Usage)

  /** What one model call is sent: the model name, the wire history, the sampling settings and the tool schemas, if any. */
  datatype ModelRequest = ModelRequest(model: string, messages: seq<WireMessage>, temperature: real, maxTokens: int, tools: Option<seq<Schema>>)

  /** A response asks for tools when its finish reason says so and it names at least one call. */
  predicate RequestsTools(r: ModelResponse) {
    r.finishReason == "tool_calls" && |r.toolCalls| > 0
  }

  /** The script ends the loop: some response in it is final. */
  ghost predicate HasFinal(script: seq<ModelResponse>) {
    exists i :: 0 <= i < |script| && !RequestsTools(script[i])
  }

  /** The index of the first final response. */
  function FirstFinal(script: seq<ModelResponse>): (n: nat)
    requires HasFinal(script)
    ensures n < |script| && !RequestsTools(script[n])
    ensures forall j :: 0 <= j < n ==> RequestsTools(script[j])
    decreases |script|
  {
    if !RequestsTools(script[0]) then 0
    else
      var i :| 0 <= i < |script| && !RequestsTools(script[i]);
      assert script[1..][i - 1] == script[i];
      FirstFinal(script[1..]) + 1
  }

  /** The rounds the loop consumes: every response up to and including the first final one. */
  function Consumed(script: seq<ModelResponse>): (rs: seq<ModelResponse>)
    requires HasFinal(script)
    ensures |rs| >= 1 && !RequestsTools(rs[|rs| - 1])
    ensures forall j :: 0 <= j < |rs| - 1 ==> RequestsTools(rs[j])
    ensures |rs| <= |script| && forall j :: 0 <= j < |rs| ==> rs[j] == script[j]
  {
    script[..FirstFinal(script) + 1]
  }

  /** The configured constants: history bound, default temperature, default response cap. */
  datatype Settings = Settings(model: string, maxHistory: int, defaultTemperature: real, defaultMaxTokens: int)

  const DefaultSettings := Settings("gpt-4-turbo-preview", 10, 0.7, 1000)

  // ---------------------------------------------------------------------
  // Tool schemas offered to the model
  // ---------------------------------------------------------------------

  /** An allow-list filters only when it is present and non-empty. */
  predicate Allowed(s: Schema, names: Option<seq<string>>) {
    names.None? || |names.value| == 0 || s.name in names.value
  }

  /** The allowed schemas, in their original order. */
  function FilterSchemas(ss: seq<Schema>, names: Option<seq<string>>): (r: seq<Schema>)
    ensures |r| <= |ss|
    ensures forall i :: 0 <= i < |r| ==> r[i] in ss && Allowed(r[i], names)
  {
    if |ss| == 0 then []
    else (if Allowed(ss[0], names) then [ss[0]] else []) + FilterSchemas(ss[1..], names)
  }

  /** Filtering keeps exactly the allowed schemas. */
  lemma {:induction false} FilterSchemasMembers(ss: seq<Schema>, names: Option<seq<string>>)
    ensures forall s :: s in FilterSchemas(ss, names) <==> s in ss && Allowed(s, names)
  {
    if |ss| > 0 {
      FilterSchemasMembers(ss[1..], names);
      assert ss == [ss[0]] + ss[1..];
    }
  }

  /** Filtering distributes over concatenation, so it keeps registry order. */
  lemma {:induction false} FilterSchemasAppend(a: seq<Schema>, b: seq<Schema>, names: Option<seq<string>>)
    ensures FilterSchemas(a + b, names) == FilterSchemas(a, names) + FilterSchemas(b, names)
  {
    if |a| == 0 {
      assert a + b == b;
    } else {
      assert (a + b)[0] == a[0];
      assert (a + b)[1..] == a[1..] + b;
      FilterSchemasAppend(a[1..], b, names);
    }
  }

  /** Without an effective allow-list nothing is filtered out. */
  lemma {:induction false} FilterSchemasNoList(ss: seq<Schema>, names: Option<seq<string>>)
    ensures names.None? || |names.value| == 0 ==> FilterSchemas(ss, names) == ss
  {
    if |ss| > 0 {
      FilterSchemasNoList(ss[1..], names);
    }
  }

  /**
   * The tools passed to the model: none when tools are disabled;
   * otherwise the registry's schemas, filtered by a non-empty allow-list
   * in registry order, and none again when that leaves nothing.
   */
  function SelectTools(reg: Registry, enable: bool, names: Option<seq<string>>): (r: Option<seq<Schema>>)
    ensures !enable ==> r.None?
    ensures r.Some? ==> |r.value| > 0
    ensures enable ==> forall s :: (r.Some? && s in r.value) <==> s in GetToolSchemas(reg) && Allowed(s, names)
    ensures enable && (names.None? || |names.value| == 0) && |reg.tools| > 0 ==> r == Some(GetToolSchemas(reg))
    ensures r.Some? ==> r.value == FilterSchemas(GetToolSchemas(reg), names)
    ensures enable && r.None? ==> FilterSchemas(GetToolSchemas(reg), names) == []
  {
    if !enable then None
    else
      var f := FilterSchemas(GetToolSchemas(reg), names);
      FilterSchemasMembers(GetToolSchemas(reg), names);
      FilterSchemasNoList(GetToolSchemas(reg), names);
      if |f| > 0 then Some(f) else None
  }

  /** The default registry advertises the three built-in schemas in registration order. */
  lemma DefaultSchemas(eval: string -> EvalResult)
    ensures GetToolSchemas(DefaultRegistry(eval)) == [SchemaOf(TransactionTool), SchemaOf(WeatherTool), SchemaOf(CalculateTool(eval))]
  {
    var ts := DefaultRegistry(eval).tools;
    var ss := GetToolSchemas(DefaultRegistry(eval));
    assert ss[0] == SchemaOf(ts[0]) && ss[1] == SchemaOf(ts[1]) && ss[2] == SchemaOf(ts[2]);
  }

  /** An allow-list naming only the calculator keeps only the last of the three built-in schemas. */
  lemma CalculatorFilter(eval: string -> EvalResult)
    ensures var s0, s1, s2 := SchemaOf(TransactionTool), SchemaOf(WeatherTool), SchemaOf(CalculateTool(eval));
            FilterSchemas([s0, s1, s2], Some(["calculate"])) == [s2]
  {
    var names := Some(["calculate"]);
    var s0, s1, s2 := SchemaOf(TransactionTool), SchemaOf(WeatherTool), SchemaOf(CalculateTool(eval));
    assert FilterSchemas([s2], names) == [s2] by {
      assert [s2][1..] == [];
    }
    assert FilterSchemas([s1, s2], names) == [s2] by {
      assert [s1, s2][1..] == [s2];
    }
    assert [s0, s1, s2][1..] == [s1, s2];
  }

  /** An allow-list naming only the calculator exposes exactly its schema from the default registry. */
  lemma OnlyCalculatorOffered(eval: string -> EvalResult)
    ensures var r := SelectTools(DefaultRegistry(eval), true, Some(["calculate"]));
            r.Some? && |r.value| == 1 && r.value[0].name == "calculate"
  {
    DefaultSchemas(eval);
    CalculatorFilter(eval);
  }

  // ---------------------------------------------------------------------
  // Executing one requested call
  // ---------------------------------------------------------------------

  /** The arguments used: the parsed payload, or no arguments when it does not parse. */
  function ArgumentsOf(codec: Codec, call: RequestedCall): Args {
    match codec.parse(call.arguments)
    case Some(a) => a
    case None => map[]
  }

  /** What the `try` around one call leaves: the recorded result and its serialized text. */
  datatype Executed = Executed(result: Value, text: string)

  /** The serialized `{"error": text}` payload; such a payload is always serializable by `json.dumps`. */
  function ErrorText(codec: Codec, message: string): string {
    match codec.dumps(ErrorPayload(message))
    case Text(t) => t
    case DumpFailed(_) => ""
  }

  /**
   * The `try` around one call: the tool runs and its result is serialized;
   * an exception from either step, the dispatch or the serialization,
   * leaves the error payload and its serialization instead.  Whenever the
   * recorded result serializes, the text is its serialization, so the
   * record and the tool message agree.
   */
  function ExecuteCall(reg: Registry, codec: Codec, name: string, args: Args): (e: Executed)
    ensures ExecuteTool(reg, name, args).Raised? ==>
              e == Executed(ErrorPayload(ExecuteTool(reg, name, args).message), ErrorText(codec, ExecuteTool(reg, name, args).message))
    ensures ExecuteTool(reg, name, args).Returned? && codec.dumps(ExecuteTool(reg, name, args).value).Text? ==>
              e == Executed(ExecuteTool(reg, name, args).value, codec.dumps(ExecuteTool(reg, name, args).value).text)
    ensures ExecuteTool(reg, name, args).Returned? && codec.dumps(ExecuteTool(reg, name, args).value).DumpFailed? ==>
              var m := codec.dumps(ExecuteTool(reg, name, args).value).message;
              e == Executed(ErrorPayload(m), ErrorText(codec, m))
    ensures codec.dumps(e.result).Text? ==> e.text == codec.dumps(e.result).text
  {
    match ExecuteTool(reg, name, args)
    case Returned(v) =>
      (match codec.dumps(v)
       case Text(t) => Executed(v, t)
       case DumpFailed(m) => Executed(ErrorPayload(m), ErrorText(codec, m)))
    case Raised(m) => Executed(ErrorPayload(m), ErrorText(codec, m))
  }

  /** The record of one executed call. */
  function RecordOf(reg: Registry, codec: Codec, call: RequestedCall): ToolCall {
    var args := ArgumentsOf(codec, call);
    ToolCall(call.name, args, ExecuteCall(reg, codec, call.name, args).result)
  }

  /**
   * Failures are folded into the record rather than aborting: an
   * unparseable payload is run with no arguments, arguments colliding with
   * the dispatcher's own parameters yield the binding error payload, an
   * unknown tool yields the not-found error payload, a raised exception
   * yields its error payload, and so does a result `json.dumps` refuses.
   */
  lemma RecordFallbacks(reg: Registry, codec: Codec, call: RequestedCall)
    ensures RecordOf(reg, codec, call).toolName == call.name
    ensures codec.parse(call.arguments).None? ==> RecordOf(reg, codec, call).arguments == map[]
    ensures var args := ArgumentsOf(codec, call);
            ClashesWithDispatch(args) ==> RecordOf(reg, codec, call).result == ErrorPayload(DuplicateArgumentMessage(args))
    ensures !ClashesWithDispatch(ArgumentsOf(codec, call)) && call.name !in GetToolNames(reg) ==>
              RecordOf(reg, codec, call).result == ErrorPayload(NotFoundPrefix + call.name + NotFoundSuffix)
    ensures ExecuteTool(reg, call.name, ArgumentsOf(codec, call)).Raised? ==>
              RecordOf(reg, codec, call).result == ErrorPayload(ExecuteTool(reg, call.name, ArgumentsOf(codec, call)).message)
    ensures var o := ExecuteTool(reg, call.name, ArgumentsOf(codec, call));
            o.Returned? && codec.dumps(o.value).DumpFailed? ==>
              RecordOf(reg, codec, call).result == ErrorPayload(codec.dumps(o.value).message)
    ensures var o := ExecuteTool(reg, call.name, ArgumentsOf(codec, call));
            o.Returned? && codec.dumps(o.value).Text? ==> RecordOf(reg, codec, call).result == o.value
    ensures codec.dumps(RecordOf(reg, codec, call).result).Text? ==>
              ToolMessage(reg, codec, call).content == Some(codec.dumps(RecordOf(reg, codec, call).result).text)
  {
  }

  /** A returned value that `json.dumps` refuses is recorded, and sent back to the model, as the error payload. */
  lemma DumpFailureRecorded(reg: Registry, codec: Codec, call: RequestedCall, v: Value)
    requires ExecuteTool(reg, call.name, ArgumentsOf(codec, call)) == Returned(v)
    requires codec.dumps(v).DumpFailed?
    ensures RecordOf(reg, codec, call).result == ErrorPayload(codec.dumps(v).message)
    ensures ToolMessage(reg, codec, call).content == Some(ErrorText(codec, codec.dumps(v).message))
  {
  }

  /** A calculator answer that `json.dumps` refuses is recorded as the error payload. */
  lemma UnserializableCalculationRecorded(eval: string -> EvalResult, codec: Codec, call: RequestedCall, e: string)
    requires call.name == "calculate"
    requires codec.parse(call.arguments) == Some(map["expression" := Str(e)])
    requires codec.dumps(Calculate(e, eval)).DumpFailed?
    ensures var m := codec.dumps(Calculate(e, eval)).message;
            && RecordOf(DefaultRegistry(eval), codec, call).result == ErrorPayload(m)
            && ToolMessage(DefaultRegistry(eval), codec, call).content == Some(ErrorText(codec, m))
  {
    assert ArgumentsOf(codec, call) == map["expression" := Str(e)];
    CalculateDispatch(eval, e);
    DumpFailureRecorded(DefaultRegistry(eval), codec, call, Calculate(e, eval));
  }

  /** `"..."` passes the character gate, so the evaluator's value (Python's Ellipsis) is the answer. */
  lemma DotsReachEvaluator(eval: string -> EvalResult)
    requires eval("...").Evaluated?
    ensures Calculate("...", eval) == Obj(map["expression" := Str("..."), "result" := eval("...").value])
  {
    assert AllAllowed("...") by {
      assert forall i :: 0 <= i < |"..."| ==> "..."[i] == '.';
    }
  }

  function Records(reg: Registry, codec: Codec, calls: seq<RequestedCall>): (rs: seq<ToolCall>)
    ensures |rs| == |calls|
    ensures forall i :: 0 <= i < |calls| ==> rs[i] == RecordOf(reg, codec, calls[i])
  {
    seq(|calls|, i requires 0 <= i < |calls| => RecordOf(reg, codec, calls[i]))
  }

  /** The tool message appended for one call: the serialized result, tagged with the call's id and tool name. */
  function ToolMessage(reg: Registry, codec: Codec, call: RequestedCall): Message {
    var text := ExecuteCall(reg, codec, call.name, ArgumentsOf(codec, call)).text;
    Message(Role.Tool, Some(text), None, None, Some(call.id), Some(call.name))
  }

  function ToolMessages(reg: Registry, codec: Codec, calls: seq<RequestedCall>): (ms: seq<Message>)
    ensures |ms| == |calls|
    ensures forall i :: 0 <= i < |calls| ==> ms[i] == ToolMessage(reg, codec, calls[i])
  {
    seq(|calls|, i requires 0 <= i < |calls| => ToolMessage(reg, codec, calls[i]))
  }

  /** The answer text: the response's content, or the empty string when it has none. */
  function AnswerOf(r: ModelResponse): string {
    r.content.GetOr("")
  }

  function UserMessage(question: string): Message {
    BareMessage(User).(content := Some(question))
  }

  /** The messages one round appends: for a tool round, the assistant's call request then one tool message per call; otherwise the final answer. */
  function RoundMessages(reg: Registry, codec: Codec, r: ModelResponse): (ms: seq<Message>)
    ensures |ms| == if RequestsTools(r) then 1 + |r.toolCalls| else 1
    ensures ms[0].role == Assistant
    ensures RequestsTools(r) <==> ms[0].toolCalls.Some?
  {
    if RequestsTools(r) then
      [Message(Assistant, r.content, None, Some(r.toolCalls), None, None)] + ToolMessages(reg, codec, r.toolCalls)
    else
      [BareMessage(Assistant).(content := Some(AnswerOf(r)))]
  }

  /**
   * Shape of one round's messages: a tool round is one assistant message
   * carrying the calls followed by one tool message per call, in the
   * model's order, with matching call id and name; a final round is one
   * assistant message with the answer.  No round appends a system message.
   */
  lemma RoundShape(reg: Registry, codec: Codec, r: ModelResponse)
    ensures var ms := RoundMessages(reg, codec, r);
            && (RequestsTools(r) ==>
                  && |ms| == 1 + |r.toolCalls|
                  && ms[0].role == Assistant && ms[0].toolCalls == Some(r.toolCalls) && ms[0].content == r.content
                  && forall i :: 0 <= i < |r.toolCalls| ==>
                       && ms[1 + i].role == Role.Tool
                       && ms[1 + i].toolCallId == Some(r.toolCalls[i].id)
                       && ms[1 + i].name == Some(r.toolCalls[i].name))
            && (!RequestsTools(r) ==> ms == [BareMessage(Assistant).(content := Some(AnswerOf(r)))])
            && forall i :: 0 <= i < |ms| ==> !IsSystem(ms[i])
  {
  }

  // ---------------------------------------------------------------------
  // Reference definitions over the consumed rounds
  // ---------------------------------------------------------------------

  /** The component-wise sum of the rounds' usage. */
  function TotalUsage(rs: seq<ModelResponse>): Usage {
    if |rs| == 0 then ZeroUsage else AddUsage(rs[0].usage, TotalUsage(rs[1..]))
  }

  /** Every call requested by a tool round, in order. */
  function RequestedCalls(rs: seq<ModelResponse>): seq<RequestedCall> {
    if |rs| == 0 then []
    else (if RequestsTools(rs[0]) then rs[0].toolCalls else []) + RequestedCalls(rs[1..])
  }

  /** Every message the rounds append, round after round. */
  function Transcript(reg: Registry, codec: Codec, rs: seq<ModelResponse>): seq<Message> {
    if |rs| == 0 then [] else RoundMessages(reg, codec, rs[0]) + Transcript(reg, codec, rs[1..])
  }

  lemma {:induction false} TranscriptNoSystem(reg: Registry, codec: Codec, rs: seq<ModelResponse>)
    ensures forall i :: 0 <= i < |Transcript(reg, codec, rs)| ==> !IsSystem(Transcript(reg, codec, rs)[i])
  {
    if |rs| > 0 {
      RoundShape(reg, codec, rs[0]);
      TranscriptNoSystem(reg, codec, rs[1..]);
    }
  }

  // ---------------------------------------------------------------------
  // The loop
  // ---------------------------------------------------------------------

  /** What stays fixed across rounds. */
  datatype Context = Context(
    registry: Registry,
    codec: Codec,
    model: string,
    tools: Option<seq<Schema>>,
    temperature: real,
    maxTokens: int,
    maxHistory: int,
    now: nat)

  /** What the loop accumulates. */
  datatype LoopState = LoopState(
    session: Session,
    usage: Usage,
    executed: seq<ToolCall>,
    requests: seq<ModelRequest>,
    answer: string)

  function RequestFor(ctx: Context, s: Session): ModelRequest {
    ModelRequest(ctx.model, WireMessages(s.messages), ctx.temperature, ctx.maxTokens, ctx.tools)
  }

  /** The requests the rounds send, one per round, each carrying the session as the earlier rounds left it. */
  function ExpectedRequests(ctx: Context, s: Session, rs: seq<ModelResponse>): (reqs: seq<ModelRequest>)
    ensures |reqs| == |rs|
    ensures |rs| > 0 ==> reqs[0] == RequestFor(ctx, s)
    decreases |rs|
  {
    if |rs| == 0 then []
    else [RequestFor(ctx, s)] + ExpectedRequests(ctx, AppendAll(s, RoundMessages(ctx.registry, ctx.codec, rs[0]), ctx.maxHistory, ctx.now), rs[1..])
  }

  /** Splitting the consumed rounds at the first response. */
  lemma ConsumedStep(script: seq<ModelResponse>)
    requires HasFinal(script) && RequestsTools(script[0])
    ensures HasFinal(script[1..])
    ensures Consumed(script) == [script[0]] + Consumed(script[1..])
  {
    var i :| 0 <= i < |script| && !RequestsTools(script[i]);
    assert script[1..][i - 1] == script[i];
    assert FirstFinal(script) == FirstFinal(script[1..]) + 1;
  }

  /** Over the consumed rounds, a leading tool round's usage comes ahead of the rest. */
  lemma ConsumedUsage(script: seq<ModelResponse>)
    requires HasFinal(script) && RequestsTools(script[0])
    ensures HasFinal(script[1..])
    ensures TotalUsage(Consumed(script)) == AddUsage(script[0].usage, TotalUsage(Consumed(script[1..])))
  {
    ConsumedStep(script);
    var c := Consumed(script);
    assert c[0] == script[0] && c[1..] == Consumed(script[1..]);
  }

  /** Over the consumed rounds, a leading tool round's calls come ahead of the rest. */
  lemma ConsumedCalls(script: seq<ModelResponse>)
    requires HasFinal(script) && RequestsTools(script[0])
    ensures HasFinal(script[1..])
    ensures RequestedCalls(Consumed(script)) == script[0].toolCalls + RequestedCalls(Consumed(script[1..]))
  {
    ConsumedStep(script);
    var c := Consumed(script);
    assert c[0] == script[0] && c[1..] == Consumed(script[1..]);
  }

  /** Over the consumed rounds, a leading tool round's messages come ahead of the rest. */
  lemma ConsumedTranscript(reg: Registry, codec: Codec, script: seq<ModelResponse>)
    requires HasFinal(script) && RequestsTools(script[0])
    ensures HasFinal(script[1..])
    ensures Transcript(reg, codec, Consumed(script)) == RoundMessages(reg, codec, script[0]) + Transcript(reg, codec, Consumed(script[1..]))
  {
    ConsumedStep(script);
    var c := Consumed(script);
    assert c[0] == script[0] && c[1..] == Consumed(script[1..]);
  }

  /** A leading tool round adds one round and leaves the final response the same. */
  lemma ConsumedLast(script: seq<ModelResponse>)
    requires HasFinal(script) && RequestsTools(script[0])
    ensures HasFinal(script[1..])
    ensures var c := Consumed(script);
            var rest := Consumed(script[1..]);
            |c| == 1 + |rest| && c[|c| - 1] == rest[|rest| - 1]
  {
    ConsumedStep(script);
  }

  /** The request list grows by this round's request ahead of the later rounds' requests. */
  lemma RequestsStep(ctx: Context, before: seq<ModelRequest>, req: ModelRequest, after: seq<ModelRequest>, n: nat)
    requires req.tools == ctx.tools && req.temperature == ctx.temperature && req.maxTokens == ctx.maxTokens && req.model == ctx.model
    requires |after| == |before| + 1 + n
    requires after[..|before| + 1] == before + [req]
    requires forall i :: |before| + 1 <= i < |after| ==>
               after[i].tools == ctx.tools && after[i].temperature == ctx.temperature && after[i].maxTokens == ctx.maxTokens && after[i].model == ctx.model
    ensures after[..|before|] == before
    ensures after[|before|] == req
    ensures forall i :: |before| <= i < |after| ==>
              after[i].tools == ctx.tools && after[i].temperature == ctx.temperature && after[i].maxTokens == ctx.maxTokens && after[i].model == ctx.model
  {
    assert after[..|before|] == after[..|before| + 1][..|before|];
    assert after[|before|] == after[..|before| + 1][|before|];
  }

  /** A leading final response is the only round run; its request, messages and (absent) calls. */
  lemma FinalRound(ctx: Context, script: seq<ModelResponse>, st: LoopState)
    requires HasFinal(script) && !RequestsTools(script[0])
    ensures Consumed(script) == [script[0]]
    ensures ExpectedRequests(ctx, st.session, [script[0]]) == [RequestFor(ctx, st.session)]
    ensures AppendAll(st.session, Transcript(ctx.registry, ctx.codec, [script[0]]), ctx.maxHistory, ctx.now)
            == AddMessage(st.session, RoundMessages(ctx.registry, ctx.codec, script[0])[0], ctx.maxHistory, ctx.now)
  {
    var r := script[0];
    ExpectedRequestsStep(ctx, st.session, r, []);
    assert [r] + [] == [r];
  }

  /** The state after one tool round, before the later rounds run. */
  function AfterToolRound(ctx: Context, r: ModelResponse, st: LoopState): LoopState {
    LoopState(
      AppendAll(st.session, RoundMessages(ctx.registry, ctx.codec, r), ctx.maxHistory, ctx.now),
      AddUsage(st.usage, r.usage),
      st.executed + Records(ctx.registry, ctx.codec, r.toolCalls),
      st.requests + [RequestFor(ctx, st.session)],
      st.answer)
  }

  /** The inductive step for the usage total, for a leading tool round. */
  lemma ToolRoundUsage(ctx: Context, script: seq<ModelResponse>, st: LoopState, o: LoopState)
    requires HasFinal(script) && RequestsTools(script[0]) && HasFinal(script[1..])
    requires o.usage == AddUsage(AddUsage(st.usage, script[0].usage), TotalUsage(Consumed(script[1..])))
    ensures o.usage == AddUsage(st.usage, TotalUsage(Consumed(script)))
  {
    ConsumedUsage(script);
  }

  /** The inductive step for the executed calls, for a leading tool round. */
  lemma ToolRoundExecuted(ctx: Context, script: seq<ModelResponse>, st: LoopState, o: LoopState)
    requires HasFinal(script) && RequestsTools(script[0]) && HasFinal(script[1..])
    requires o.executed == st.executed + Records(ctx.registry, ctx.codec, script[0].toolCalls)
                           + Records(ctx.registry, ctx.codec, RequestedCalls(Consumed(script[1..])))
    ensures o.executed == st.executed + Records(ctx.registry, ctx.codec, RequestedCalls(Consumed(script)))
  {
    ConsumedCalls(script);
    RecordsSplit(ctx.registry, ctx.codec, st.executed, script[0].toolCalls, RequestedCalls(Consumed(script[1..])));
  }

  /** The inductive step for the session, for a leading tool round. */
  lemma ToolRoundSession(ctx: Context, script: seq<ModelResponse>, st: LoopState, o: LoopState)
    requires HasFinal(script) && RequestsTools(script[0]) && HasFinal(script[1..])
    requires o.session == AppendAll(AfterToolRound(ctx, script[0], st).session,
                                    Transcript(ctx.registry, ctx.codec, Consumed(script[1..])), ctx.maxHistory, ctx.now)
    ensures o.session == AppendAll(st.session, Transcript(ctx.registry, ctx.codec, Consumed(script)), ctx.maxHistory, ctx.now)
  {
    ConsumedTranscript(ctx.registry, ctx.codec, script);
    AppendAllConcat(st.session, RoundMessages(ctx.registry, ctx.codec, script[0]),
                    Transcript(ctx.registry, ctx.codec, Consumed(script[1..])), ctx.maxHistory, ctx.now);
  }

  /** The inductive step for the requests sent and the answer, for a leading tool round. */
  lemma ToolRoundRequests(ctx: Context, script: seq<ModelResponse>, st: LoopState, o: LoopState)
    requires HasFinal(script) && RequestsTools(script[0]) && HasFinal(script[1..])
    requires var before := st.requests + [RequestFor(ctx, st.session)];
             var rest := Consumed(script[1..]);
             && |o.requests| == |before| + |rest|
             && o.requests[..|before|] == before
             && (forall i :: |before| <= i < |o.requests| ==>
                   o.requests[i].tools == ctx.tools && o.requests[i].temperature == ctx.temperature && o.requests[i].maxTokens == ctx.maxTokens && o.requests[i].model == ctx.model)
             && o.answer == AnswerOf(rest[|rest| - 1])
    ensures |o.requests| == |st.requests| + |Consumed(script)|
    ensures o.requests[..|st.requests|] == st.requests
    ensures o.requests[|st.requests|] == RequestFor(ctx, st.session)
    ensures forall i :: |st.requests| <= i < |o.requests| ==>
              o.requests[i].tools == ctx.tools && o.requests[i].temperature == ctx.temperature && o.requests[i].maxTokens == ctx.maxTokens && o.requests[i].model == ctx.model
    ensures o.answer == AnswerOf(Consumed(script)[|Consumed(script)| - 1])
  {
    ConsumedLast(script);
    RequestsStep(ctx, st.requests, RequestFor(ctx, st.session), o.requests, |Consumed(script[1..])|);
  }

  /**
   * One tool round followed by the later rounds: what the later rounds
   * promise from the advanced state is what the whole loop promises from
   * the state before the round.
   */
  lemma ToolRoundStep(ctx: Context, script: seq<ModelResponse>, st: LoopState, o: LoopState)
    requires HasFinal(script) && RequestsTools(script[0]) && HasFinal(script[1..])
    requires var next := AfterToolRound(ctx, script[0], st);
             var rest := Consumed(script[1..]);
             && o.usage == AddUsage(next.usage, TotalUsage(rest))
             && o.executed == next.executed + Records(ctx.registry, ctx.codec, RequestedCalls(rest))
             && o.session == AppendAll(next.session, Transcript(ctx.registry, ctx.codec, rest), ctx.maxHistory, ctx.now)
             && |o.requests| == |next.requests| + |rest|
             && o.requests[..|next.requests|] == next.requests
             && (forall i :: |next.requests| <= i < |o.requests| ==>
                   o.requests[i].tools == ctx.tools && o.requests[i].temperature == ctx.temperature && o.requests[i].maxTokens == ctx.maxTokens && o.requests[i].model == ctx.model)
             && o.answer == AnswerOf(rest[|rest| - 1])
    ensures o.usage == AddUsage(st.usage, TotalUsage(Consumed(script)))
    ensures o.executed == st.executed + Records(ctx.registry, ctx.codec, RequestedCalls(Consumed(script)))
    ensures o.session == AppendAll(st.session, Transcript(ctx.registry, ctx.codec, Consumed(script)), ctx.maxHistory, ctx.now)
    ensures |o.requests| == |st.requests| + |Consumed(script)|
    ensures o.requests[..|st.requests|] == st.requests
    ensures o.requests[|st.requests|] == RequestFor(ctx, st.session)
    ensures forall i :: |st.requests| <= i < |o.requests| ==>
              o.requests[i].tools == ctx.tools && o.requests[i].temperature == ctx.temperature && o.requests[i].maxTokens == ctx.maxTokens && o.requests[i].model == ctx.model
    ensures o.answer == AnswerOf(Consumed(script)[|Consumed(script)| - 1])
  {
    ToolRoundUsage(ctx, script, st, o);
    ToolRoundExecuted(ctx, script, st, o);
    ToolRoundSession(ctx, script, st, o);
    ToolRoundRequests(ctx, script, st, o);
  }

  /**
   * The round loop.  Each round sends the current wire history, adds the
   * round's usage to the running total, and either runs the requested
   * calls and continues, or appends the answer and stops.  Over the rounds
   * consumed, the result is: the usage added up, one record per requested
   * call in order, the session advanced by the transcript, one request per
   * round with the same settings and tools, and the final response's answer.
   */
  function Rounds(ctx: Context, script: seq<ModelResponse>, st: LoopState): (o: LoopState)
    requires HasFinal(script)
    ensures o.usage == AddUsage(st.usage, TotalUsage(Consumed(script)))
    ensures o.executed == st.executed + Records(ctx.registry, ctx.codec, RequestedCalls(Consumed(script)))
    ensures o.session == AppendAll(st.session, Transcript(ctx.registry, ctx.codec, Consumed(script)), ctx.maxHistory, ctx.now)
    ensures |o.requests| == |st.requests| + |Consumed(script)|
    ensures o.requests[..|st.requests|] == st.requests
    ensures o.requests[|st.requests|] == RequestFor(ctx, st.session)
    ensures forall i :: |st.requests| <= i < |o.requests| ==>
              o.requests[i].tools == ctx.tools && o.requests[i].temperature == ctx.temperature && o.requests[i].maxTokens == ctx.maxTokens && o.requests[i].model == ctx.model
    ensures o.answer == AnswerOf(Consumed(script)[|Consumed(script)| - 1])
    ensures o.requests == st.requests + ExpectedRequests(ctx, st.session, Consumed(script))
    decreases |script|
  {
    var r := script[0];
    var req := RequestFor(ctx, st.session);
    var usage := AddUsage(st.usage, r.usage);
    var chunk := RoundMessages(ctx.registry, ctx.codec, r);
    if RequestsTools(r) then
      ConsumedStep(script);
      var o := Rounds(ctx, script[1..], AfterToolRound(ctx, r, st));
      ToolRoundStep(ctx, script, st, o);
      ToolRoundHistory(ctx, script, st.session, st.requests, o.requests);
      o
    else
      FinalRound(ctx, script, st);
      LoopState(
        AddMessage(st.session, chunk[0], ctx.maxHistory, ctx.now),
        usage,
        st.executed,
        st.requests + [req],
        AnswerOf(r))
  }

  /** The messages of the first k rounds: the first round's, then those of the next k - 1. */
  lemma TranscriptPrefix(reg: Registry, codec: Codec, rs: seq<ModelResponse>, k: nat)
    requires 1 <= k <= |rs|
    ensures Transcript(reg, codec, rs[..k]) == RoundMessages(reg, codec, rs[0]) + Transcript(reg, codec, rs[1..][..k - 1])
  {
    assert rs[..k][0] == rs[0];
    assert rs[..k][1..] == rs[1..][..k - 1];
  }

  /**
   * Request k of the reference sequence carries the session as it stands
   * after the first k rounds' messages have been appended.
   */
  lemma {:induction false} ExpectedRequestsAt(ctx: Context, s: Session, rs: seq<ModelResponse>, k: nat)
    requires k < |rs|
    ensures ExpectedRequests(ctx, s, rs)[k]
            == RequestFor(ctx, AppendAll(s, Transcript(ctx.registry, ctx.codec, rs[..k]), ctx.maxHistory, ctx.now))
    decreases k
  {
    if k == 0 {
      assert rs[..0] == [];
    } else {
      ExpectedRequestsAt(ctx, AppendAll(s, RoundMessages(ctx.registry, ctx.codec, rs[0]), ctx.maxHistory, ctx.now), rs[1..], k - 1);
      ExpectedRequestsAtStep(ctx, s, rs, k);
    }
  }

  /** The step of `ExpectedRequestsAt`: its claim for the later rounds at k - 1 gives its claim at k. */
  lemma ExpectedRequestsAtStep(ctx: Context, s: Session, rs: seq<ModelResponse>, k: nat)
    requires 0 < k < |rs|
    requires var s1 := AppendAll(s, RoundMessages(ctx.registry, ctx.codec, rs[0]), ctx.maxHistory, ctx.now);
             ExpectedRequests(ctx, s1, rs[1..])[k - 1]
               == RequestFor(ctx, AppendAll(s1, Transcript(ctx.registry, ctx.codec, rs[1..][..k - 1]), ctx.maxHistory, ctx.now))
    ensures ExpectedRequests(ctx, s, rs)[k]
            == RequestFor(ctx, AppendAll(s, Transcript(ctx.registry, ctx.codec, rs[..k]), ctx.maxHistory, ctx.now))
  {
    var chunk := RoundMessages(ctx.registry, ctx.codec, rs[0]);
    ExpectedRequestsLater(ctx, s, rs, k);
    TranscriptPrefix(ctx.registry, ctx.codec, rs, k);
    RequestAfterTwoStretches(ctx, s, chunk, Transcript(ctx.registry, ctx.codec, rs[1..][..k - 1]),
                             Transcript(ctx.registry, ctx.codec, rs[..k]));
  }

  /** The request for a session advanced by two stretches of messages is the request for it advanced by both at once. */
  lemma RequestAfterTwoStretches(ctx: Context, s: Session, a: seq<Message>, b: seq<Message>, ab: seq<Message>)
    requires ab == a + b
    ensures RequestFor(ctx, AppendAll(AppendAll(s, a, ctx.maxHistory, ctx.now), b, ctx.maxHistory, ctx.now))
            == RequestFor(ctx, AppendAll(s, ab, ctx.maxHistory, ctx.now))
  {
    AppendAllConcat(s, a, b, ctx.maxHistory, ctx.now);
  }

  /** Request k > 0 of the reference sequence is request k - 1 of the later rounds' sequence. */
  lemma ExpectedRequestsLater(ctx: Context, s: Session, rs: seq<ModelResponse>, k: nat)
    requires 0 < k < |rs|
    ensures ExpectedRequests(ctx, s, rs)[k]
            == ExpectedRequests(ctx, AppendAll(s, RoundMessages(ctx.registry, ctx.codec, rs[0]), ctx.maxHistory, ctx.now), rs[1..])[k - 1]
  {
    ExpectedRequestsStep(ctx, s, rs[0], rs[1..]);
    assert [rs[0]] + rs[1..] == rs;
  }

  /** The reference sequence over a leading tool round: that round's request, then the later rounds' on the advanced session. */
  lemma ExpectedRequestsStep(ctx: Context, s: Session, r: ModelResponse, rest: seq<ModelResponse>)
    ensures ExpectedRequests(ctx, s, [r] + rest)
            == [RequestFor(ctx, s)] + ExpectedRequests(ctx, AppendAll(s, RoundMessages(ctx.registry, ctx.codec, r), ctx.maxHistory, ctx.now), rest)
  {
    assert ([r] + rest)[0] == r && ([r] + rest)[1..] == rest;
  }

  /** The reference requests of a script that opens with a tool round: that round's request, then the rest's. */
  lemma ExpectedRequestsToolStep(ctx: Context, script: seq<ModelResponse>, s: Session)
    requires HasFinal(script) && RequestsTools(script[0])
    ensures HasFinal(script[1..])
    ensures ExpectedRequests(ctx, s, Consumed(script))
            == [RequestFor(ctx, s)]
               + ExpectedRequests(ctx, AppendAll(s, RoundMessages(ctx.registry, ctx.codec, script[0]), ctx.maxHistory, ctx.now),
                                  Consumed(script[1..]))
  {
    ConsumedStep(script);
    ExpectedRequestsStep(ctx, s, script[0], Consumed(script[1..]));
  }

  /**
   * The inductive step for the history each request carries, for a leading
   * tool round: the round's own request, followed by the reference requests
   * of the later rounds, is the reference list of the whole script.
   */
  lemma ToolRoundHistory(ctx: Context, script: seq<ModelResponse>, s: Session, pre: seq<ModelRequest>, out: seq<ModelRequest>)
    requires HasFinal(script) && RequestsTools(script[0]) && HasFinal(script[1..])
    requires out == pre + [RequestFor(ctx, s)]
                    + ExpectedRequests(ctx, AppendAll(s, RoundMessages(ctx.registry, ctx.codec, script[0]), ctx.maxHistory, ctx.now),
                                       Consumed(script[1..]))
    ensures out == pre + ExpectedRequests(ctx, s, Consumed(script))
  {
    var later := ExpectedRequests(ctx, AppendAll(s, RoundMessages(ctx.registry, ctx.codec, script[0]), ctx.maxHistory, ctx.now),
                                  Consumed(script[1..]));
    ExpectedRequestsToolStep(ctx, script, s);
    RegroupAfter(out, pre, RequestFor(ctx, s), later, ExpectedRequests(ctx, s, Consumed(script)));
  }

  /** Records of two stretches of calls, appended after earlier records. */
  lemma RecordsSplit(reg: Registry, codec: Codec, pre: seq<ToolCall>, a: seq<RequestedCall>, b: seq<RequestedCall>)
    ensures pre + Records(reg, codec, a + b) == pre + Records(reg, codec, a) + Records(reg, codec, b)
  {
    RecordsAppend(reg, codec, a, b);
    var x, y := Records(reg, codec, a), Records(reg, codec, b);
    assert pre + (x + y) == pre + x + y;
  }

  lemma RecordsAppend(reg: Registry, codec: Codec, a: seq<RequestedCall>, b: seq<RequestedCall>)
    ensures Records(reg, codec, a + b) == Records(reg, codec, a) + Records(reg, codec, b)
  {
    var l := Records(reg, codec, a + b);
    var rr := Records(reg, codec, a) + Records(reg, codec, b);
    assert |l| == |rr|;
    forall i | 0 <= i < |l|
      ensures l[i] == rr[i]
    {
      if i < |a| {
        assert (a + b)[i] == a[i];
      } else {
        assert (a + b)[i] == b[i - |a|];
      }
    }
  }

  // ---------------------------------------------------------------------
  // ask
  // ---------------------------------------------------------------------

  /** What `ask` returns, together with the store it leaves, the requests it sent and the messages it appended. */
  datatype AskOutcome = AskOutcome(
    answer: string,
    sessionId: string,
    usage: Usage,
    toolCalls: seq<ToolCall>,
    store: Store,
    requests: seq<ModelRequest>,
    appended: seq<Message>)

  /** The registry `ask` uses: the one passed in, or the default one. */
  function RegistryFor(registryOverride: Option<Registry>, defaultRegistry: Registry): Registry {
    registryOverride.GetOr(defaultRegistry)
  }

  /** The session `ask` resolves before it appends the question. */
  function Resolve(store: Store, q: QuestionRequest, settings: Settings, freshId: string, now: nat): Resolved
    requires freshId !in store
  {
    GetOrCreate(store, q.sessionId, q.systemPrompt, freshId, settings.maxHistory, now)
  }

  function ContextFor(q: QuestionRequest, reg: Registry, codec: Codec, settings: Settings, now: nat): Context {
    Context(
      reg,
      codec,
      settings.model,
      SelectTools(reg, q.enableTools, q.toolNames),
      q.temperature.GetOr(settings.defaultTemperature),
      q.maxTokens.GetOr(settings.defaultMaxTokens),
      settings.maxHistory,
      now)
  }

  /**
   * One exchange on a resolved session: the question is appended, then the
   * rounds run.  The session ends advanced by the question and the
   * transcript; the first request already carries the question.
   */
  function Converse(ctx: Context, start: Session, question: string, script: seq<ModelResponse>): (st: LoopState)
    requires HasFinal(script)
    ensures var rounds := Consumed(script);
            && st.usage == TotalUsage(rounds)
            && st.executed == Records(ctx.registry, ctx.codec, RequestedCalls(rounds))
            && st.answer == AnswerOf(rounds[|rounds| - 1])
            && st.session == AppendAll(start, [UserMessage(question)] + Transcript(ctx.registry, ctx.codec, rounds), ctx.maxHistory, ctx.now)
    ensures && |st.requests| == |Consumed(script)|
            && st.requests[0] == RequestFor(ctx, AddMessage(start, UserMessage(question), ctx.maxHistory, ctx.now))
            && forall i :: 0 <= i < |st.requests| ==>
                 st.requests[i].tools == ctx.tools && st.requests[i].temperature == ctx.temperature && st.requests[i].maxTokens == ctx.maxTokens && st.requests[i].model == ctx.model
  {
    var user := UserMessage(question);
    var session := AddMessage(start, user, ctx.maxHistory, ctx.now);
    var st := Rounds(ctx, script, LoopState(session, ZeroUsage, [], [], ""));
    AppendAfterFirst(start, user, Transcript(ctx.registry, ctx.codec, Consumed(script)), ctx.maxHistory, ctx.now);
    ZeroUsageUnit(TotalUsage(Consumed(script)));
    st
  }

  /**
   * `ask`: resolve the session, append the question, run the rounds, and
   * return the answer, the session id, the summed usage and the executed
   * calls.  The store ends with the resolved session advanced by exactly
   * the appended messages, and no other session changes.
   */
  function Ask(store: Store, q: QuestionRequest, registryOverride: Option<Registry>, defaultRegistry: Registry,
               settings: Settings, codec: Codec, script: seq<ModelResponse>, freshId: string, now: nat): (o: AskOutcome)
    requires freshId !in store
    requires HasFinal(script)
    ensures var res := Resolve(store, q, settings, freshId, now);
            var reg := RegistryFor(registryOverride, defaultRegistry);
            var rounds := Consumed(script);
            && o.sessionId == res.id
            && o.usage == TotalUsage(rounds)
            && o.toolCalls == Records(reg, codec, RequestedCalls(rounds))
            && o.answer == AnswerOf(rounds[|rounds| - 1])
            && o.appended == [UserMessage(q.question)] + Transcript(reg, codec, rounds)
  {
    var reg := RegistryFor(registryOverride, defaultRegistry);
    var res := Resolve(store, q, settings, freshId, now);
    var st := Converse(ContextFor(q, reg, codec, settings, now), res.store[res.id], q.question, script);
    AskOutcome(st.answer, res.id, st.usage, st.executed, res.store[res.id := st.session], st.requests,
               [UserMessage(q.question)] + Transcript(reg, codec, Consumed(script)))
  }

  /**
   * The store `ask` leaves: the keys after resolution, the resolved
   * session advanced by exactly the appended messages, and every other
   * session as it was.
   */
  lemma AskStore(store: Store, q: QuestionRequest, registryOverride: Option<Registry>, defaultRegistry: Registry,
                 settings: Settings, codec: Codec, script: seq<ModelResponse>, freshId: string, now: nat)
    requires freshId !in store
    requires HasFinal(script)
    ensures var res := Resolve(store, q, settings, freshId, now);
            var o := Ask(store, q, registryOverride, defaultRegistry, settings, codec, script, freshId, now);
            && o.store.Keys == res.store.Keys
            && o.store[o.sessionId] == AppendAll(res.store[res.id], o.appended, settings.maxHistory, now)
            && (forall k :: k in o.store && k != o.sessionId ==> o.store[k] == res.store[k])
  {
  }

  /**
   * The requests `ask` sends: one per round; the first carries the log
   * with the question appended; every one carries the selected tools and
   * the effective temperature and response cap (the request's own, else
   * the configured default).
   */
  lemma AskRequests(store: Store, q: QuestionRequest, registryOverride: Option<Registry>, defaultRegistry: Registry,
                    settings: Settings, codec: Codec, script: seq<ModelResponse>, freshId: string, now: nat)
    requires freshId !in store
    requires HasFinal(script)
    ensures var res := Resolve(store, q, settings, freshId, now);
            var reg := RegistryFor(registryOverride, defaultRegistry);
            var o := Ask(store, q, registryOverride, defaultRegistry, settings, codec, script, freshId, now);
            && |o.requests| == |Consumed(script)|
            && o.requests[0].messages == WireMessages(AddMessage(res.store[res.id], UserMessage(q.question), settings.maxHistory, now).messages)
            && forall i :: 0 <= i < |o.requests| ==>
                 && o.requests[i].tools == SelectTools(reg, q.enableTools, q.toolNames)
                 && o.requests[i].temperature == q.temperature.GetOr(settings.defaultTemperature)
                 && o.requests[i].maxTokens == q.maxTokens.GetOr(settings.defaultMaxTokens)
                 && o.requests[i].model == settings.model
  {
  }

  /** The requests of an exchange are exactly the reference sequence, started from the log with the question added. */
  lemma ConverseRequests(ctx: Context, start: Session, question: string, script: seq<ModelResponse>)
    requires HasFinal(script)
    ensures Converse(ctx, start, question, script).requests
              == ExpectedRequests(ctx, AddMessage(start, UserMessage(question), ctx.maxHistory, ctx.now), Consumed(script))
  {
    var session := AddMessage(start, UserMessage(question), ctx.maxHistory, ctx.now);
    var st := Rounds(ctx, script, LoopState(session, ZeroUsage, [], [], ""));
    assert [] + ExpectedRequests(ctx, session, Consumed(script)) == ExpectedRequests(ctx, session, Consumed(script));
  }

  /**
   * Request k of an exchange carries the wire form of the log as it stood
   * before round k: the log before the question, advanced by the question
   * and the first k rounds' messages.
   */
  lemma ConverseRequestAt(ctx: Context, start: Session, question: string, script: seq<ModelResponse>, k: nat)
    requires HasFinal(script) && k < |Consumed(script)|
    ensures var rs := Consumed(script);
            var st := Converse(ctx, start, question, script);
            k < |st.requests| &&
            st.requests[k].messages
              == WireMessages(AppendAll(start, [UserMessage(question)] + Transcript(ctx.registry, ctx.codec, rs[..k]), ctx.maxHistory, ctx.now).messages)
  {
    var rs := Consumed(script);
    var user := UserMessage(question);
    ConverseRequests(ctx, start, question, script);
    ExpectedRequestsAt(ctx, AddMessage(start, user, ctx.maxHistory, ctx.now), rs, k);
    AppendAfterFirst(start, user, Transcript(ctx.registry, ctx.codec, rs[..k]), ctx.maxHistory, ctx.now);
  }

  /** Every request `ask` sends carries the whole log as it stood at that round, question included. */
  lemma AskRequestHistory(store: Store, q: QuestionRequest, registryOverride: Option<Registry>, defaultRegistry: Registry,
                          settings: Settings, codec: Codec, script: seq<ModelResponse>, freshId: string, now: nat)
    requires freshId !in store
    requires HasFinal(script)
    ensures var res := Resolve(store, q, settings, freshId, now);
            var reg := RegistryFor(registryOverride, defaultRegistry);
            var o := Ask(store, q, registryOverride, defaultRegistry, settings, codec, script, freshId, now);
            var rs := Consumed(script);
            |o.requests| == |rs| &&
            forall k :: 0 <= k < |rs| ==>
              o.requests[k].messages
                == WireMessages(AppendAll(res.store[res.id], [UserMessage(q.question)] + Transcript(reg, codec, rs[..k]),
                                          settings.maxHistory, now).messages)
  {
    var res := Resolve(store, q, settings, freshId, now);
    var reg := RegistryFor(registryOverride, defaultRegistry);
    var ctx := ContextFor(q, reg, codec, settings, now);
    forall k | 0 <= k < |Consumed(script)| {
      ConverseRequestAt(ctx, res.store[res.id], q.question, script, k);
    }
  }

  // ---------------------------------------------------------------------
  // Properties of a whole exchange
  // ---------------------------------------------------------------------

  /** Usage is additive over consecutive stretches of rounds. */
  lemma {:induction false} TotalUsageAppend(a: seq<ModelResponse>, b: seq<ModelResponse>)
    ensures TotalUsage(a + b) == AddUsage(TotalUsage(a), TotalUsage(b))
  {
    if |a| == 0 {
      assert a + b == b;
    } else {
      assert (a + b)[0] == a[0];
      assert (a + b)[1..] == a[1..] + b;
      TotalUsageAppend(a[1..], b);
    }
  }

  /** The executed-call list has one entry per requested call, in the model's order, named after it. */
  lemma ExecutedFollowsRequests(store: Store, q: QuestionRequest, registryOverride: Option<Registry>, defaultRegistry: Registry,
                                settings: Settings, codec: Codec, script: seq<ModelResponse>, freshId: string, now: nat)
    requires freshId !in store
    requires HasFinal(script)
    ensures var o := Ask(store, q, registryOverride, defaultRegistry, settings, codec, script, freshId, now);
            var calls := RequestedCalls(Consumed(script));
            && |o.toolCalls| == |calls|
            && forall i :: 0 <= i < |calls| ==> o.toolCalls[i].toolName == calls[i].name
  {
  }

  /** A first response that is final means no tool was called and a single round was paid for. */
  lemma DirectAnswer(store: Store, q: QuestionRequest, registryOverride: Option<Registry>, defaultRegistry: Registry,
                     settings: Settings, codec: Codec, script: seq<ModelResponse>, freshId: string, now: nat)
    requires freshId !in store
    requires |script| > 0 && !RequestsTools(script[0])
    ensures HasFinal(script)
    ensures var o := Ask(store, q, registryOverride, defaultRegistry, settings, codec, script, freshId, now);
            && o.toolCalls == []
            && o.usage == script[0].usage
            && o.answer == AnswerOf(script[0])
            && o.appended == [UserMessage(q.question), BareMessage(Assistant).(content := Some(AnswerOf(script[0])))]
  {
    assert Consumed(script) == [script[0]];
    assert AddUsage(script[0].usage, ZeroUsage) == script[0].usage;
    assert Transcript(RegistryFor(registryOverride, defaultRegistry), codec, [script[0]])
        == RoundMessages(RegistryFor(registryOverride, defaultRegistry), codec, script[0]);
  }

  /**
   * While the session has room for everything appended, its log after
   * `ask` is its log before followed by the question and the transcript.
   */
  lemma AskWithoutTrimming(store: Store, q: QuestionRequest, registryOverride: Option<Registry>, defaultRegistry: Registry,
                           settings: Settings, codec: Codec, script: seq<ModelResponse>, freshId: string, now: nat)
    requires freshId !in store
    requires HasFinal(script)
    requires var res := Resolve(store, q, settings, freshId, now);
             var o := Ask(store, q, registryOverride, defaultRegistry, settings, codec, script, freshId, now);
             |res.store[res.id].messages| + |o.appended| <= settings.maxHistory
    ensures var res := Resolve(store, q, settings, freshId, now);
            var o := Ask(store, q, registryOverride, defaultRegistry, settings, codec, script, freshId, now);
            o.store[o.sessionId].messages == res.store[res.id].messages + StampAll(o.appended, now)
  {
    var res := Resolve(store, q, settings, freshId, now);
    var o := Ask(store, q, registryOverride, defaultRegistry, settings, codec, script, freshId, now);
    AppendAllNoTrim(res.store[res.id], o.appended, settings.maxHistory, now);
  }

  /** Appending a question and then non-system replies keeps the bound, the system messages and a leading system message. */
  lemma QuestionAndRepliesBounded(start: Session, question: string, replies: seq<Message>, maxHistory: int, now: nat)
    requires forall i :: 0 <= i < |replies| ==> !IsSystem(replies[i])
    requires |start.messages| <= maxHistory && CountSystem(start.messages) < maxHistory
    ensures var after := AppendAll(start, [UserMessage(question)] + replies, maxHistory, now).messages;
            && |after| <= maxHistory
            && SystemMessages(after) == SystemMessages(start.messages)
            && (|start.messages| > 0 && IsSystem(start.messages[0]) ==> |after| > 0 && after[0] == start.messages[0])
  {
    var appended := [UserMessage(question)] + replies;
    assert forall i :: 1 <= i < |appended| ==> appended[i] == replies[i - 1];
    AppendAllBounded(start, appended, maxHistory, now);
    if |start.messages| > 0 && IsSystem(start.messages[0]) {
      AppendAllKeepsFirstSystem(start, appended, maxHistory, now);
    }
  }

  /** On a resolved session, an exchange keeps the history bound, the system messages and a leading system message. */
  lemma ConverseKeepsBound(ctx: Context, start: Session, question: string, script: seq<ModelResponse>)
    requires HasFinal(script)
    requires |start.messages| <= ctx.maxHistory && CountSystem(start.messages) < ctx.maxHistory
    ensures var after := Converse(ctx, start, question, script).session.messages;
            && |after| <= ctx.maxHistory
            && SystemMessages(after) == SystemMessages(start.messages)
            && (|start.messages| > 0 && IsSystem(start.messages[0]) ==> |after| > 0 && after[0] == start.messages[0])
  {
    TranscriptNoSystem(ctx.registry, ctx.codec, Consumed(script));
    QuestionAndRepliesBounded(start, question, Transcript(ctx.registry, ctx.codec, Consumed(script)), ctx.maxHistory, ctx.now);
  }

  /**
   * The history bound holds across an exchange: a session within the
   * bound whose system messages leave room stays within it, keeps its
   * system messages and keeps a leading system message first.
   */
  lemma AskKeepsBound(store: Store, q: QuestionRequest, registryOverride: Option<Registry>, defaultRegistry: Registry,
                      settings: Settings, codec: Codec, script: seq<ModelResponse>, freshId: string, now: nat)
    requires freshId !in store
    requires HasFinal(script)
    requires var res := Resolve(store, q, settings, freshId, now);
             && |res.store[res.id].messages| <= settings.maxHistory
             && CountSystem(res.store[res.id].messages) < settings.maxHistory
    ensures var res := Resolve(store, q, settings, freshId, now);
            var o := Ask(store, q, registryOverride, defaultRegistry, settings, codec, script, freshId, now);
            var before := res.store[res.id].messages;
            var after := o.store[o.sessionId].messages;
            && |after| <= settings.maxHistory
            && SystemMessages(after) == SystemMessages(before)
            && (|before| > 0 && IsSystem(before[0]) ==> |after| > 0 && after[0] == before[0])
  {
    var res := Resolve(store, q, settings, freshId, now);
    var reg := RegistryFor(registryOverride, defaultRegistry);
    ConverseKeepsBound(ContextFor(q, reg, codec, settings, now), res.store[res.id], q.question, script);
  }

  /**
   * With the configured defaults, an exchange on a new session, with or
   * without a system prompt, leaves at most ten messages, and a non-empty
   * prompt is still the first of them.
   */
  lemma NewSessionKeepsDefaultBound(store: Store, q: QuestionRequest, registryOverride: Option<Registry>, defaultRegistry: Registry,
                                    codec: Codec, script: seq<ModelResponse>, freshId: string, now: nat)
    requires freshId !in store
    requires HasFinal(script)
    requires !(Given(q.sessionId) && q.sessionId.value in store)
    ensures var o := Ask(store, q, registryOverride, defaultRegistry, DefaultSettings, codec, script, freshId, now);
            var after := o.store[o.sessionId].messages;
            && |after| <= 10
            && (q.systemPrompt.Some? && q.systemPrompt.value != "" ==>
                  |after| > 0 && after[0].role == System && after[0].content == q.systemPrompt)
  {
    GetOrCreateCases(store, q.sessionId, q.systemPrompt, freshId, DefaultSettings.maxHistory, now);
    var res := Resolve(store, q, DefaultSettings, freshId, now);
    var before := res.store[res.id].messages;
    assert |before| <= 1;
    assert CountSystem(before) <= |before|;
    AskKeepsBound(store, q, registryOverride, defaultRegistry, DefaultSettings, codec, script, freshId, now);
  }

  /** Every session stays filed under its own id across an exchange. */
  lemma AskKeepsStoreWellKeyed(store: Store, q: QuestionRequest, registryOverride: Option<Registry>, defaultRegistry: Registry,
                               settings: Settings, codec: Codec, script: seq<ModelResponse>, freshId: string, now: nat)
    requires freshId !in store
    requires HasFinal(script)
    requires WellKeyed(store)
    ensures WellKeyed(Ask(store, q, registryOverride, defaultRegistry, settings, codec, script, freshId, now).store)
  {
  }
}

=== FILE: base.dfy ===
/** Small shared vocabulary: optional values and integer minimum. */
module Base {

  /** Python's `Optional[T]`: a value that may be `None`. */
  datatype Option<+T> = None | Some(value: T) {

    /** The wrapped value, or `default` when absent (Python's `x if x is not None else default`). */
    function GetOr(default: T): T {
      match this
      case Some(v) => v
      case None => default
    }
  }

  function Min(a: int, b: int): int {
    if a <= b then a else b
  }

  /** A sequence made of `pre`, then `x`, then `tail` is `pre` followed by any sequence equal to `[x] + tail`. */
  lemma RegroupAfter<T>(a: seq<T>, pre: seq<T>, x: T, tail: seq<T>, whole: seq<T>)
    requires a == pre + [x] + tail
    requires whole == [x] + tail
    ensures a == pre + whole
  {
    ConcatAssoc(pre, [x], tail);
  }

  /** `f` applied to every element, in order. */
  function MapSeq<A, B>(f: A -> B, s: seq<A>): (r: seq<B>)
    ensures |r| == |s|
    ensures forall i :: 0 <= i < |s| ==> r[i] == f(s[i])
  {
    seq(|s|, i requires 0 <= i < |s| => f(s[i]))
  }

  lemma MapSeqAppend<A, B>(f: A -> B, s: seq<A>, x: A)
    ensures MapSeq(f, s + [x]) == MapSeq(f, s) + [f(x)]
  {
    assert forall i :: 0 <= i < |s| ==> (s + [x])[i] == s[i];
  }

  lemma MapSeqUpdate<A, B>(f: A -> B, s: seq<A>, i: int, x: A)
    requires 0 <= i < |s|
    ensures MapSeq(f, s[i := x]) == MapSeq(f, s)[i := f(x)]
  {
  }

  lemma MapSeqRemove<A, B>(f: A -> B, s: seq<A>, i: int)
    requires 0 <= i < |s|
    ensures MapSeq(f, s[..i] + s[i + 1..]) == MapSeq(f, s)[..i] + MapSeq(f, s)[i + 1..]
  {
    var u := s[..i] + s[i + 1..];
    var m := MapSeq(f, s);
    var w := m[..i] + m[i + 1..];
    assert forall j :: 0 <= j < |u| ==> u[j] == s[if j < i then j else j + 1];
    assert forall j :: 0 <= j < |w| ==> w[j] == m[if j < i then j else j + 1];
  }

  /** Concatenation is associative. */
  lemma ConcatAssoc<T>(a: seq<T>, b: seq<T>, c: seq<T>)
    ensures (a + b) + c == a + (b + c)
  {
  }
}

/** The JSON-shaped values that flow between the model, the tools and the log. */
module Json {
  import opened Base

  /** A JSON value as produced by Python's `json.loads` or returned by a tool. */
  datatype Value =
    | Null
    | Bool(b: bool)
    | Num(x: real)
    | Str(s: string)
    | Arr(items: seq<Value>)
    | Obj(fields: map<string, Value>)

  /** Keyword arguments handed to a tool (`**kwargs`). */
  type Args = map<string, Value>

  /** What `json.dumps` makes of a value: its text, or the message of the exception it raises. */
  datatype Dumped = Text(text: string) | DumpFailed(message: string)

  /**
   * The JSON codec the agent uses: `parse` is `json.loads` restricted to
   * object payloads (`None` stands for a decoding failure) and `dumps` is
   * `json.dumps`, left uninterpreted, which may refuse a value it cannot
   * serialize.
   */
  datatype Codec = Codec(parse: string -> Option<Args>, dumps: Value -> Dumped)

  /** The `{"error": text}` payload that stands in for a failed tool execution. */
  function ErrorPayload(text: string): Value {
    Obj(map["error" := Str(text)])
  }
}

=== FILE: conversation.dfy ===
/**
 * One conversation session (`ConversationSession` in src/agent.py): an
 * ordered message log, trimmed back to `maxHistory` messages after every
 * append, and its projection to the model's wire format.
 */
module Conversation {
  import opened Base
  import opened Models

  /** A session: its id, its message log and the two clock readings. */
  datatype Session = Session(id: string, messages: seq<Message>, createdAt: nat, updatedAt: nat)

  /** The immutable view handed out by history retrieval. */
  datatype History = History(sessionId: string, messages: seq<Message>, createdAt: nat, updatedAt: nat)

  predicate IsSystem(m: Message) {
    m.role == System
  }

  // ---------------------------------------------------------------------
  // The two halves the trimming step splits the log into
  // ---------------------------------------------------------------------

  /** `[m for m in ms if m.role == "system"]` */
  function SystemMessages(ms: seq<Message>): (r: seq<Message>)
    ensures |r| <= |ms|
  {
    if |ms| == 0 then []
    else (if IsSystem(ms[0]) then [ms[0]] else []) + SystemMessages(ms[1..])
  }

  /** `[m for m in ms if m.role != "system"]` */
  function OtherMessages(ms: seq<Message>): (r: seq<Message>)
    ensures |r| <= |ms|
  {
    if |ms| == 0 then []
    else (if IsSystem(ms[0]) then [] else [ms[0]]) + OtherMessages(ms[1..])
  }

  function CountSystem(ms: seq<Message>): nat {
    |SystemMessages(ms)|
  }

  /** The two halves split the log: together they hold exactly as many messages as the log. */
  lemma {:induction false} PartitionLength(ms: seq<Message>)
    ensures |SystemMessages(ms)| + |OtherMessages(ms)| == |ms|
  {
    if |ms| > 0 {
      PartitionLength(ms[1..]);
    }
  }

  /** Both filters distribute over concatenation, so they keep relative order. */
  lemma FiltersAppend(a: seq<Message>, b: seq<Message>)
    ensures SystemMessages(a + b) == SystemMessages(a) + SystemMessages(b)
    ensures OtherMessages(a + b) == OtherMessages(a) + OtherMessages(b)
  {
    SystemAppend(a, b);
    OtherAppend(a, b);
  }

  lemma {:induction false} SystemAppend(a: seq<Message>, b: seq<Message>)
    ensures SystemMessages(a + b) == SystemMessages(a) + SystemMessages(b)
  {
    if |a| == 0 {
      assert a + b == b;
    } else {
      var head := if IsSystem(a[0]) then [a[0]] else [];
      assert (a + b)[1..] == a[1..] + b;
      SystemAppend(a[1..], b);
      calc {
        SystemMessages(a + b);
        head + SystemMessages(a[1..] + b);
        head + (SystemMessages(a[1..]) + SystemMessages(b));
        (head + SystemMessages(a[1..])) + SystemMessages(b);
      }
    }
  }

  lemma {:induction false} OtherAppend(a: seq<Message>, b: seq<Message>)
    ensures OtherMessages(a + b) == OtherMessages(a) + OtherMessages(b)
  {
    if |a| == 0 {
      assert a + b == b;
    } else {
      var head := if IsSystem(a[0]) then [] else [a[0]];
      assert (a + b)[1..] == a[1..] + b;
      OtherAppend(a[1..], b);
      calc {
        OtherMessages(a + b);
        head + OtherMessages(a[1..] + b);
        head + (OtherMessages(a[1..]) + OtherMessages(b));
        (head + OtherMessages(a[1..])) + OtherMessages(b);
      }
    }
  }

  lemma {:induction false} FiltersOfSystem(ms: seq<Message>)
    requires forall i :: 0 <= i < |ms| ==> IsSystem(ms[i])
    ensures SystemMessages(ms) == ms
    ensures OtherMessages(ms) == []
  {
    if |ms| > 0 {
      FiltersOfSystem(ms[1..]);
    }
  }

  lemma {:induction false} FiltersOfOthers(ms: seq<Message>)
    requires forall i :: 0 <= i < |ms| ==> !IsSystem(ms[i])
    ensures SystemMessages(ms) == []
    ensures OtherMessages(ms) == ms
  {
    if |ms| > 0 {
      FiltersOfOthers(ms[1..]);
    }
  }

  lemma {:induction false} SystemMessagesAreSystem(ms: seq<Message>)
    ensures forall i :: 0 <= i < |SystemMessages(ms)| ==> IsSystem(SystemMessages(ms)[i])
  {
    if |ms| > 0 {
      SystemMessagesAreSystem(ms[1..]);
    }
  }

  lemma {:induction false} OtherMessagesAreOthers(ms: seq<Message>)
    ensures forall i :: 0 <= i < |OtherMessages(ms)| ==> !IsSystem(OtherMessages(ms)[i])
  {
    if |ms| > 0 {
      OtherMessagesAreOthers(ms[1..]);
    }
  }

  /** A log that starts with a system message keeps it first among its system messages. */
  lemma FirstSystemLeads(ms: seq<Message>)
    requires |ms| > 0 && IsSystem(ms[0])
    ensures |SystemMessages(ms)| > 0 && SystemMessages(ms)[0] == ms[0]
  {
  }

  // ---------------------------------------------------------------------
  // Trimming
  // ---------------------------------------------------------------------

  /**
   * Python's `a[start:]` for an integer `start`: a non-negative start
   * drops that many leading elements (all of them when it is too large),
   * a negative start keeps the last `-start` elements (all of them when
   * there are fewer).
   */
  function SliceFrom<T>(a: seq<T>, start: int): (r: seq<T>)
    ensures |r| <= |a| && r == a[|a| - |r|..]
    ensures start >= 0 ==> |r| == |a| - Min(start, |a|)
    ensures start < 0 ==> |r| == Min(-start, |a|)
  {
    if start >= 0 then a[Min(start, |a|)..]
    else if |a| + start < 0 then a
    else a[|a| + start..]
  }

  /** The non-system messages a trim keeps: `others[-(maxHistory - #system):]`. */
  function KeptOthers(ms: seq<Message>, maxHistory: int): seq<Message> {
    SliceFrom(OtherMessages(ms), -(maxHistory - CountSystem(ms)))
  }

  /**
   * The trimming step, as written in the source: every system message,
   * then `others[-(maxHistory - #system):]`.  When `maxHistory` equals the
   * number of system messages the slice is `others[-0:]`, which keeps
   * every non-system message.
   */
  function Trim(ms: seq<Message>, maxHistory: int): (r: seq<Message>)
    ensures |r| <= |ms|
  {
    PartitionLength(ms);
    SystemMessages(ms) + KeptOthers(ms, maxHistory)
  }

  /** Every message the slice keeps is a non-system message. */
  lemma KeptAreOthers(ms: seq<Message>, maxHistory: int)
    ensures forall i :: 0 <= i < |KeptOthers(ms, maxHistory)| ==> !IsSystem(KeptOthers(ms, maxHistory)[i])
  {
    var others := OtherMessages(ms);
    var kept := KeptOthers(ms, maxHistory);
    OtherMessagesAreOthers(ms);
    var k := |others| - |kept|;
    assert kept == others[k..];
    forall i | 0 <= i < |kept|
      ensures !IsSystem(kept[i])
    {
      assert kept[i] == others[k + i];
    }
  }

  /** The trimmed log splits back into the system messages and the kept slice. */
  lemma TrimSplits(ms: seq<Message>, maxHistory: int)
    ensures Trim(ms, maxHistory) == SystemMessages(ms) + KeptOthers(ms, maxHistory)
    ensures SystemMessages(Trim(ms, maxHistory)) == SystemMessages(ms)
    ensures OtherMessages(Trim(ms, maxHistory)) == KeptOthers(ms, maxHistory)
  {
    var sys := SystemMessages(ms);
    var kept := KeptOthers(ms, maxHistory);
    assert SystemMessages(sys) == sys && OtherMessages(sys) == [] by {
      SystemMessagesAreSystem(ms);
      FiltersOfSystem(sys);
    }
    assert SystemMessages(kept) == [] && OtherMessages(kept) == kept by {
      KeptAreOthers(ms, maxHistory);
      FiltersOfOthers(kept);
    }
    FiltersAppend(sys, kept);
  }

  /** Trimming keeps every system message, in order, ahead of the kept non-system messages. */
  lemma TrimKeepsSystemMessages(ms: seq<Message>, maxHistory: int)
    ensures SystemMessages(Trim(ms, maxHistory)) == SystemMessages(ms)
    ensures Trim(ms, maxHistory) == SystemMessages(ms) + OtherMessages(Trim(ms, maxHistory))
  {
    TrimSplits(ms, maxHistory);
  }

  /**
   * The non-system messages that survive are the most recent ones, in
   * order: a suffix of the non-system messages whose length is
   * `min(H - #system, #others)` when `H > #system`, all of them when
   * `H == #system`, and all but the first `#system - H` when `H < #system`.
   */
  lemma TrimKeepsRecentOthers(ms: seq<Message>, maxHistory: int)
    ensures var others := OtherMessages(ms);
            var kept := OtherMessages(Trim(ms, maxHistory));
            var s := CountSystem(ms);
            && |kept| <= |others| && kept == others[|others| - |kept|..]
            && (maxHistory > s ==> |kept| == Min(maxHistory - s, |others|))
            && (maxHistory == s ==> kept == others)
            && (maxHistory < s ==> |kept| == |others| - Min(s - maxHistory, |others|))
  {
    TrimSplits(ms, maxHistory);
  }

  /** With room for at least one non-system message, a trimmed log never exceeds the bound. */
  lemma TrimBound(ms: seq<Message>, maxHistory: int)
    requires maxHistory > CountSystem(ms)
    ensures |Trim(ms, maxHistory)| <= maxHistory
  {
    TrimKeepsRecentOthers(ms, maxHistory);
    TrimKeepsSystemMessages(ms, maxHistory);
  }

  /**
   * The sharp edge of the source's slice: when the bound equals the
   * number of system messages, `others[-0:]` keeps the whole log, so
   * trimming removes nothing and the log stays over the bound.
   */
  lemma TrimAtSystemCountKeepsAll(ms: seq<Message>, maxHistory: int)
    requires maxHistory == CountSystem(ms)
    ensures |Trim(ms, maxHistory)| == |ms|
  {
    TrimKeepsRecentOthers(ms, maxHistory);
    TrimKeepsSystemMessages(ms, maxHistory);
    PartitionLength(ms);
  }

  /** One concrete log showing the edge: bound 1, a system prompt and two questions stay at three messages. */
  lemma TrimEdgeWitness(sys: Message, q1: Message, q2: Message)
    requires sys.role == System && q1.role == User && q2.role == User
    ensures |Trim([sys, q1, q2], 1)| == 3
  {
    assert [sys, q1, q2] == [sys] + [q1, q2];
    FiltersAppend([sys], [q1, q2]);
    FiltersOfSystem([sys]);
    FiltersOfOthers([q1, q2]);
    TrimAtSystemCountKeepsAll([sys, q1, q2], 1);
  }

  // ---------------------------------------------------------------------
  // Appending
  // ---------------------------------------------------------------------

  /** The message as stored: the caller's fields with the clock reading as its timestamp. */
  function Stamp(m: Message, now: nat): Message {
    m.(timestamp := Some(now))
  }

  /**
   * `add_message`: append the stamped message, refresh `updatedAt`, and
   * trim when the log now holds more than `maxHistory` messages.
   */
  function AddMessage(s: Session, m: Message, maxHistory: int, now: nat): (r: Session)
    ensures r.id == s.id && r.createdAt == s.createdAt && r.updatedAt == now
    ensures |s.messages| < maxHistory ==> r.messages == s.messages + [Stamp(m, now)]
    ensures |s.messages| >= maxHistory ==>
              var ext := s.messages + [Stamp(m, now)];
              var others := OtherMessages(ext);
              var kept := OtherMessages(r.messages);
              var sys := CountSystem(ext);
              && SystemMessages(r.messages) == SystemMessages(ext)
              && r.messages == SystemMessages(ext) + kept
              && |kept| <= |others| && kept == others[|others| - |kept|..]
              && (maxHistory > sys ==> |kept| == Min(maxHistory - sys, |others|))
              && (maxHistory == sys ==> kept == others)
              && (maxHistory < sys ==> |kept| == |others| - Min(sys - maxHistory, |others|))
  {
    var msgs := s.messages + [Stamp(m, now)];
    var kept := if |msgs| > maxHistory then Trim(msgs, maxHistory) else msgs;
    TrimKeepsSystemMessages(msgs, maxHistory);
    TrimKeepsRecentOthers(msgs, maxHistory);
    Session(s.id, kept, s.createdAt, now)
  }

  /** A log that starts with a system message still starts with it after an append. */
  lemma AddMessageKeepsFirstSystem(s: Session, m: Message, maxHistory: int, now: nat)
    requires |s.messages| > 0 && IsSystem(s.messages[0])
    ensures var r := AddMessage(s, m, maxHistory, now);
            |r.messages| > 0 && r.messages[0] == s.messages[0]
  {
    var msgs := s.messages + [Stamp(m, now)];
    if |msgs| > maxHistory {
      FirstSystemLeads(msgs);
    }
  }

  /**
   * While the log has room for a non-system message, appending a
   * non-system message keeps the log within the bound and keeps its
   * system messages.
   */
  lemma AddMessageBounded(s: Session, m: Message, maxHistory: int, now: nat)
    requires !IsSystem(m)
    requires |s.messages| <= maxHistory
    requires CountSystem(s.messages) < maxHistory
    ensures var r := AddMessage(s, m, maxHistory, now);
            && |r.messages| <= maxHistory
            && SystemMessages(r.messages) == SystemMessages(s.messages)
  {
    var msgs := s.messages + [Stamp(m, now)];
    FiltersAppend(s.messages, [Stamp(m, now)]);
    assert SystemMessages([Stamp(m, now)]) == [];
    assert SystemMessages(msgs) == SystemMessages(s.messages);
    if |msgs| > maxHistory {
      TrimBound(msgs, maxHistory);
    }
  }

  /** A sequence of `add_message` calls with one clock reading; the session keeps its id and creation time. */
  function AppendAll(s: Session, ms: seq<Message>, maxHistory: int, now: nat): (r: Session)
    ensures r.id == s.id && r.createdAt == s.createdAt
    decreases |ms|
  {
    if |ms| == 0 then s
    else AppendAll(AddMessage(s, ms[0], maxHistory, now), ms[1..], maxHistory, now)
  }

  function StampAll(ms: seq<Message>, now: nat): (r: seq<Message>)
    ensures |r| == |ms|
    ensures forall i :: 0 <= i < |ms| ==> r[i] == Stamp(ms[i], now)
  {
    if |ms| == 0 then [] else [Stamp(ms[0], now)] + StampAll(ms[1..], now)
  }

  /** Appending in two batches is appending their concatenation. */
  lemma {:induction false} AppendAllConcat(s: Session, a: seq<Message>, b: seq<Message>, maxHistory: int, now: nat)
    ensures AppendAll(AppendAll(s, a, maxHistory, now), b, maxHistory, now) == AppendAll(s, a + b, maxHistory, now)
    decreases |a|
  {
    if |a| == 0 {
      assert a + b == b;
    } else {
      assert (a + b)[0] == a[0];
      assert (a + b)[1..] == a[1..] + b;
      AppendAllConcat(AddMessage(s, a[0], maxHistory, now), a[1..], b, maxHistory, now);
    }
  }

  /** Appending one message and then a batch is appending the batch with that message in front. */
  lemma AppendAfterFirst(s: Session, m: Message, ms: seq<Message>, maxHistory: int, now: nat)
    ensures AppendAll(AddMessage(s, m, maxHistory, now), ms, maxHistory, now) == AppendAll(s, [m] + ms, maxHistory, now)
  {
    assert ([m] + ms)[0] == m && ([m] + ms)[1..] == ms;
  }

  /** While nothing overflows, a batch of appends is plain concatenation. */
  lemma {:induction false} AppendAllNoTrim(s: Session, ms: seq<Message>, maxHistory: int, now: nat)
    requires |s.messages| + |ms| <= maxHistory
    ensures AppendAll(s, ms, maxHistory, now).messages == s.messages + StampAll(ms, now)
    decreases |ms|
  {
    if |ms| > 0 {
      var s1 := AddMessage(s, ms[0], maxHistory, now);
      var head := [Stamp(ms[0], now)];
      var tail := StampAll(ms[1..], now);
      calc {
        AppendAll(s, ms, maxHistory, now).messages;
        AppendAll(s1, ms[1..], maxHistory, now).messages;
        { AppendAllNoTrim(s1, ms[1..], maxHistory, now); }
        s1.messages + tail;
        (s.messages + head) + tail;
        { ConcatAssoc(s.messages, head, tail); }
        s.messages + (head + tail);
        s.messages + StampAll(ms, now);
      }
    }
  }

  /**
   * For any batch of non-system appends, a log within the bound whose
   * system messages leave room stays within the bound, and its system
   * messages all survive, in order.
   */
  lemma {:induction false} AppendAllBounded(s: Session, ms: seq<Message>, maxHistory: int, now: nat)
    requires forall i :: 0 <= i < |ms| ==> !IsSystem(ms[i])
    requires |s.messages| <= maxHistory
    requires CountSystem(s.messages) < maxHistory
    ensures var r := AppendAll(s, ms, maxHistory, now);
            && |r.messages| <= maxHistory
            && SystemMessages(r.messages) == SystemMessages(s.messages)
            && r.id == s.id
    decreases |ms|
  {
    if |ms| > 0 {
      var s1 := AddMessage(s, ms[0], maxHistory, now);
      AddMessageBounded(s, ms[0], maxHistory, now);
      AppendAllBounded(s1, ms[1..], maxHistory, now);
    }
  }

  /** A system message at the head of the log stays at index 0 through any batch of appends. */
  lemma {:induction false} AppendAllKeepsFirstSystem(s: Session, ms: seq<Message>, maxHistory: int, now: nat)
    requires |s.messages| > 0 && IsSystem(s.messages[0])
    ensures var r := AppendAll(s, ms, maxHistory, now);
            |r.messages| > 0 && r.messages[0] == s.messages[0]
    decreases |ms|
  {
    if |ms| > 0 {
      var s1 := AddMessage(s, ms[0], maxHistory, now);
      AddMessageKeepsFirstSystem(s, ms[0], maxHistory, now);
      AppendAllKeepsFirstSystem(s1, ms[1..], maxHistory, now);
    }
  }

  // ---------------------------------------------------------------------
  // Construction and snapshot
  // ---------------------------------------------------------------------

  /** The system message a non-empty prompt becomes. */
  function SystemMessage(prompt: string): Message {
    BareMessage(System).(content := Some(prompt))
  }

  /**
   * `ConversationSession(session_id, system_prompt)`: an empty log, plus
   * one system message when the prompt is present and non-empty.
   */
  function NewSession(id: string, prompt: Option<string>, maxHistory: int, now: nat): (s: Session)
    ensures s.id == id && s.createdAt == now && s.updatedAt == now
    ensures prompt.Some? && prompt.value != "" ==>
              |s.messages| == 1 && s.messages[0].role == System && s.messages[0].content == prompt
    ensures prompt.None? || prompt.value == "" ==> s.messages == []
  {
    var empty := Session(id, [], now, now);
    if prompt.Some? && prompt.value != "" then
      var m := Stamp(SystemMessage(prompt.value), now);
      assert [] + [m] == [m];
      assert SystemMessages([m]) == [m];
      assert OtherMessages([m]) == [];
      AddMessage(empty, SystemMessage(prompt.value), maxHistory, now)
    else empty
  }

  /** `to_history`: the session's id, full log and clock readings. */
  function ToHistory(s: Session): (h: History)
    ensures h.sessionId == s.id && h.messages == s.messages
    ensures h.createdAt == s.createdAt && h.updatedAt == s.updatedAt
  {
    History(s.id, s.messages, s.createdAt, s.updatedAt)
  }

  // ---------------------------------------------------------------------
  // Wire format
  // ---------------------------------------------------------------------

  /** One message as sent to the model; absent fields are simply not there. */
  datatype WireMessage = WireMessage(
    role: Role,
    content: Option<string>,
    toolCalls: Option<seq<RequestedCall>>,
    toolCallId: Option<string>,
    name: Option<string>)

  /** Python truthiness of an optional list or string: present and non-empty. */
  predicate Truthy<T>(o: Option<seq<T>>) {
    o.Some? && |o.value| > 0
  }

  /**
   * One record of `get_messages_for_api`: the role always; the content
   * whenever it is not `None` (so an empty text is kept); the tool calls,
   * call id and name only when present and non-empty.
   */
  function ToWire(m: Message): (w: WireMessage)
    ensures w.role == m.role
    ensures w.content.Some? <==> m.content.Some?
    ensures w.content.Some? ==> w.content == m.content
    ensures w.toolCalls.Some? <==> Truthy(m.toolCalls)
    ensures w.toolCalls.Some? ==> w.toolCalls == m.toolCalls
    ensures w.toolCallId.Some? <==> Truthy(m.toolCallId)
    ensures w.toolCallId.Some? ==> w.toolCallId == m.toolCallId
    ensures w.name.Some? <==> Truthy(m.name)
    ensures w.name.Some? ==> w.name == m.name
  {
    WireMessage(
      m.role,
      m.content,
      if Truthy(m.toolCalls) then m.toolCalls else None,
      if Truthy(m.toolCallId) then m.toolCallId else None,
      if Truthy(m.name) then m.name else None)
  }

  /** `get_messages_for_api`: one record per message, in log order. */
  function WireMessages(ms: seq<Message>): (ws: seq<WireMessage>)
    ensures |ws| == |ms|
    ensures forall i :: 0 <= i < |ms| ==> ws[i] == ToWire(ms[i])
  {
    seq(|ms|, i requires 0 <= i < |ms| => ToWire(ms[i]))
  }

  /** Reading a wire record back as an unstamped message. */
  function FromWire(w: WireMessage): Message {
    Message(w.role, w.content, None, w.toolCalls, w.toolCallId, w.name)
  }

  /** A message none of whose list or text fields is present-but-empty. */
  predicate WireNormal(m: Message) {
    && (m.toolCalls.Some? ==> |m.toolCalls.value| > 0)
    && (m.toolCallId.Some? ==> |m.toolCallId.value| > 0)
    && (m.name.Some? ==> |m.name.value| > 0)
  }

  /**
   * The wire format drops exactly the timestamp and the present-but-empty
   * fields: reading a record back restores the message (without its
   * timestamp) iff the message had no present-but-empty field.
   */
  lemma WireRoundTrip(m: Message)
    ensures FromWire(ToWire(m)) == m.(timestamp := None) <==> WireNormal(m)
  {
  }

  /** Every record whose optional fields are non-empty is the image of its read-back. */
  lemma WireRoundTripBack(w: WireMessage)
    ensures ToWire(FromWire(w)) == w <==>
              && (w.toolCalls.Some? ==> |w.toolCalls.value| > 0)
              && (w.toolCallId.Some? ==> |w.toolCallId.value| > 0)
              && (w.name.Some? ==> |w.name.value| > 0)
  {
  }

  /** A message built from a role and a text goes on the wire as exactly that role and text. */
  lemma WireOfPlainMessage(r: Role, text: string, now: nat)
    ensures ToWire(Stamp(BareMessage(r).(content := Some(text)), now)) == WireMessage(r, Some(text), None, None, None)
  {
  }
}

=== FILE: models.dfy ===
/** The records of src/models.py: roles, messages, tool-call records and the request constraints. */
module Models {
  import opened Base
  import opened Json

  /** The four roles a message may carry. */
  datatype Role = System | User | Assistant | Tool

  function RoleName(r: Role): string {
    match r
    case System => "system"
    case User => "user"
    case Assistant => "assistant"
    case Tool => "tool"
  }

  /** Validation of the `role` literal: exactly the four names are accepted, anything else is rejected. */
  function ParseRole(s: string): (r: Option<Role>)
    ensures r.Some? <==> s in {"system", "user", "assistant", "tool"}
    ensures r.Some? ==> RoleName(r.value) == s
  {
    if s == "system" then Some(System)
    else if s == "user" then Some(User)
    else if s == "assistant" then Some(Assistant)
    else if s == "tool" then Some(Tool)
    else None
  }

  lemma RoleNameRoundTrip(r: Role)
    ensures ParseRole(RoleName(r)) == Some(r)
  {
  }

  /**
   * One tool call requested by the model, as stored on an assistant
   * message: call id, call type (always "function" for this API), tool
   * name and the raw JSON argument text.
   */
  datatype RequestedCall = RequestedCall(id: string, callType: string, name: string, arguments: string)

  /** A conversation message; every field but the role is optional. */
  datatype Message = Message(
    role: Role,
    content: Option<string>,
    timestamp: Option<nat>,
    toolCalls: Option<seq<RequestedCall>>,
    toolCallId: Option<string>,
    name: Option<string>)

  /** A message built from a role alone: every optional field takes its default, absent. */
  function BareMessage(role: Role): (m: Message)
    ensures m.role == role
    ensures m.content.None? && m.timestamp.None? && m.toolCalls.None?
    ensures m.toolCallId.None? && m.name.None?
  {
    Message(role, None, None, None, None, None)
  }

  /** The record of one executed tool call: name, the arguments actually used, and the result or error payload. */
  datatype ToolCall = ToolCall(toolName: string, arguments: Args, result: Value)

  /** Token counts of one model round or of a whole exchange. */
  datatype Usage = Usage(promptTokens: int, completionTokens: int, totalTokens: int)

  const ZeroUsage := Usage(0, 0, 0)

  function AddUsage(a: Usage, b: Usage): Usage {
    Usage(a.promptTokens + b.promptTokens, a.completionTokens + b.completionTokens, a.totalTokens + b.totalTokens)
  }

  /** Starting the running total at zero adds nothing. */
  lemma ZeroUsageUnit(u: Usage)
    ensures AddUsage(ZeroUsage, u) == u
  {
  }

  /** The body of a question request. */
  datatype QuestionRequest = QuestionRequest(
    question: string,
    sessionId: Option<string>,
    temperature: Option<real>,
    maxTokens: Option<int>,
    systemPrompt: Option<string>,
    enableTools: bool,
    toolNames: Option<seq<string>>)

  /** A request carrying only the required question: tools enabled, no allow-list, nothing else set. */
  function DefaultRequest(question: string): (q: QuestionRequest)
    ensures q.question == question && q.enableTools && q.toolNames.None?
    ensures q.sessionId.None? && q.temperature.None? && q.maxTokens.None? && q.systemPrompt.None?
  {
    QuestionRequest(question, None, None, None, None, true, None)
  }

  /** The request fields that carry a constraint. */
  datatype Field = QuestionField | TemperatureField | MaxTokensField

  ghost predicate QuestionOk(q: QuestionRequest) { |q.question| >= 1 }
  ghost predicate TemperatureOk(q: QuestionRequest) { q.temperature.None? || 0.0 <= q.temperature.value <= 2.0 }
  ghost predicate MaxTokensOk(q: QuestionRequest) { q.maxTokens.None? || q.maxTokens.value > 0 }

  /** A request is accepted exactly when every constrained field meets its bound. */
  ghost predicate ValidRequest(q: QuestionRequest) {
    QuestionOk(q) && TemperatureOk(q) && MaxTokensOk(q)
  }

  /**
   * Field validation: the list of fields that violate their constraint,
   * in declaration order; the request is accepted iff the list is empty.
   */
  function Validate(q: QuestionRequest): (errs: seq<Field>)
    ensures QuestionField in errs <==> !QuestionOk(q)
    ensures TemperatureField in errs <==> !TemperatureOk(q)
    ensures MaxTokensField in errs <==> !MaxTokensOk(q)
    ensures errs == [] <==> ValidRequest(q)
    ensures |errs| <= 3
  {
    (if |q.question| == 0 then [QuestionField] else [])
    + (match q.temperature
       case Some(t) => if t < 0.0 || t > 2.0 then [TemperatureField] else []
       case None => [])
    + (match q.maxTokens
       case Some(n) => if n <= 0 then [MaxTokensField] else []
       case None => [])
  }

  /** Only the question is required: the defaults alone pass validation iff the question is non-empty. */
  lemma DefaultRequestValidIff(question: string)
    ensures Validate(DefaultRequest(question)) == [] <==> question != []
  {
  }

  /** The answer returned to a caller. */
  datatype AnswerResponse = AnswerResponse(answer: string, sessionId: string, model: string, usage: Usage, toolCalls: seq<ToolCall>)

  /** A response built without tool calls defaults to an empty tool-call list. */
  function NewAnswerResponse(answer: string, sessionId: string, model: string, usage: Usage): (r: AnswerResponse)
    ensures r.toolCalls == []
    ensures r.answer == answer && r.sessionId == sessionId && r.model == model && r.usage == usage
  {
    AnswerResponse(answer, sessionId, model, usage, [])
  }
}

=== FILE: registry.dfy ===
/**
 * `ToolRegistry` of src/tools.py: an insertion-ordered map from tool name
 * to tool, kept as a sequence of tools with distinct names.
 */
module ToolRegistry {
  import opened Base
  import opened Json
  import opened BuiltinTools

  datatype Registry = Registry(tools: seq<Tool>)

  /** The declarative schema a tool advertises: `{"type": "function", "function": {name, description, parameters}}`. */
  datatype Schema = FunctionSchema(name: string, description: string, parameters: Value)

  function SchemaOf(t: Tool): Schema {
    FunctionSchema(t.name, t.description, t.parameters)
  }

  function NameOf(t: Tool): string {
    t.name
  }

  function NamesOf(ts: seq<Tool>): (ns: seq<string>)
    ensures |ns| == |ts|
    ensures forall i :: 0 <= i < |ts| ==> ns[i] == ts[i].name
  {
    MapSeq(NameOf, ts)
  }

  /** The representation invariant: a name occurs at most once (dictionary keys are unique). */
  ghost predicate Valid(r: Registry) {
    forall i, j :: 0 <= i < j < |r.tools| ==> r.tools[i].name != r.tools[j].name
  }

  const Empty := Registry([])

  /** The position of the first tool named `name`, or -1 when there is none. */
  function Find(ts: seq<Tool>, name: string): (i: int)
    ensures -1 <= i < |ts|
    ensures i == -1 <==> forall j :: 0 <= j < |ts| ==> ts[j].name != name
    ensures i >= 0 ==> ts[i].name == name && forall j :: 0 <= j < i ==> ts[j].name != name
    decreases |ts|
  {
    if |ts| == 0 then -1
    else if ts[0].name == name then 0
    else
      var k := Find(ts[1..], name);
      if k == -1 then -1 else k + 1
  }

  /** Two tool lists that agree on where `name` occurs agree on where it is found. */
  lemma FindAgrees(a: seq<Tool>, b: seq<Tool>, name: string)
    requires |a| == |b|
    requires forall j :: 0 <= j < |a| ==> (a[j].name == name <==> b[j].name == name)
    ensures Find(a, name) == Find(b, name)
  {
  }

  /** `get_tool`: the tool registered under `name`, if any. */
  function GetTool(r: Registry, name: string): (t: Option<Tool>)
    ensures t.Some? <==> name in GetToolNames(r)
    ensures t.Some? ==> t.value.name == name && t.value in r.tools
  {
    var i := Find(r.tools, name);
    if i == -1 then None else Some(r.tools[i])
  }

  /**
   * `get_all_tools`: one entry per registered tool, in registration order.
   * That each entry is what its name resolves to is `AllToolsRetrievable`.
   */
  function GetAllTools(r: Registry): (ts: seq<Tool>)
    ensures |ts| == |r.tools|
  {
    r.tools
  }

  /** `get_tool_schemas`: one schema per tool, in registration order, each naming its tool. */
  function GetToolSchemas(r: Registry): (ss: seq<Schema>)
    ensures |ss| == |GetAllTools(r)|
    ensures forall i :: 0 <= i < |ss| ==> ss[i].name == GetAllTools(r)[i].name
  {
    MapSeq(SchemaOf, r.tools)
  }

  /** `get_tool_names`: one name per tool, in registration order. */
  function GetToolNames(r: Registry): (ns: seq<string>)
    ensures |ns| == |GetAllTools(r)|
    ensures forall i :: 0 <= i < |ns| ==> ns[i] == GetAllTools(r)[i].name
  {
    NamesOf(r.tools)
  }

  /** Every tool `get_all_tools` lists is what `get_tool` returns for its name. */
  lemma AllToolsRetrievable(r: Registry)
    requires Valid(r)
    ensures forall i :: 0 <= i < |GetAllTools(r)| ==> GetTool(r, GetAllTools(r)[i].name) == Some(GetAllTools(r)[i])
  {
    forall i | 0 <= i < |GetAllTools(r)|
      ensures GetTool(r, GetAllTools(r)[i].name) == Some(GetAllTools(r)[i])
    {
      assert Find(r.tools, r.tools[i].name) == i;
    }
  }

  /** The three listings line up: position i of the schemas names the tool and the name at position i. */
  lemma ListingsAgree(r: Registry)
    ensures |GetToolSchemas(r)| == |GetToolNames(r)| == |GetAllTools(r)|
    ensures forall i :: 0 <= i < |GetToolNames(r)| ==> GetToolSchemas(r)[i].name == GetToolNames(r)[i]
  {
  }

  /** Appending a tool moves no earlier occurrence; the new tool is found only when the name was absent. */
  lemma FindAppend(ts: seq<Tool>, t: Tool, n: string)
    ensures Find(ts + [t], n) == if Find(ts, n) >= 0 then Find(ts, n) else if t.name == n then |ts| else -1
  {
    var u := ts + [t];
    assert forall j :: 0 <= j < |ts| ==> u[j] == ts[j];
    assert u[|ts|] == t;
  }

  /** Removing position i shifts the occurrences after it down by one and keeps those before it. */
  lemma FindRemove(ts: seq<Tool>, i: int, n: string)
    requires 0 <= i < |ts| && ts[i].name != n
    ensures var u := ts[..i] + ts[i + 1..];
            var a := Find(ts, n);
            Find(u, n) == if a == -1 then -1 else if a < i then a else a - 1
  {
    var u := ts[..i] + ts[i + 1..];
    var a := Find(ts, n);
    assert |u| == |ts| - 1;
    if a == -1 {
      assert forall j :: 0 <= j < |u| ==> u[j].name != n;
    } else if a < i {
      assert u[a] == ts[a];
      assert forall j :: 0 <= j < a ==> u[j].name != n;
    } else {
      assert u[a - 1] == ts[a];
      assert forall j :: 0 <= j < a - 1 ==> u[j].name != n by {
        forall j | 0 <= j < a - 1
          ensures u[j].name != n
        {
          if j >= i {
            assert u[j] == ts[j + 1];
          }
        }
      }
    }
  }

  /** The lookup read through `Find`: the tool at the first position holding the name. */
  lemma GetToolViaFind(ts: seq<Tool>, n: string, a: int)
    requires a == Find(ts, n)
    ensures GetTool(Registry(ts), n) == if a == -1 then None else Some(ts[a])
  {
  }

  /** Removing another name's tool leaves the lookup of `n` unchanged. */
  lemma GetToolRemove(ts: seq<Tool>, i: int, n: string)
    requires 0 <= i < |ts| && ts[i].name != n
    ensures GetTool(Registry(ts[..i] + ts[i + 1..]), n) == GetTool(Registry(ts), n)
  {
    var u := ts[..i] + ts[i + 1..];
    var a, b := Find(ts, n), Find(u, n);
    FindRemove(ts, i, n);
    assert a >= 0 ==> b >= 0 && u[b] == ts[a] by {
      if a >= 0 && a < i {
        assert u[a] == ts[a];
      } else if a >= 0 {
        assert u[a - 1] == ts[a];
      }
    }
    GetToolViaFind(ts, n, a);
    GetToolViaFind(u, n, b);
  }

  /** `register`: a new name is appended; an existing name has its tool replaced in place. */
  function Register(r: Registry, t: Tool): (reg: Registry)
    ensures GetTool(reg, t.name) == Some(t)
    ensures |reg.tools| == |r.tools| + (if t.name in GetToolNames(r) then 0 else 1)
  {
    var i := Find(r.tools, t.name);
    if i == -1 then
      FindAppend(r.tools, t, t.name);
      Registry(r.tools + [t])
    else
      FindAgrees(r.tools, r.tools[i := t], t.name);
      Registry(r.tools[i := t])
  }

  /**
   * After `register` the name resolves to the new tool and every other
   * name resolves as before; names stay distinct.
   */
  lemma RegisterLookup(r: Registry, t: Tool)
    ensures Valid(r) ==> Valid(Register(r, t))
    ensures GetTool(Register(r, t), t.name) == Some(t)
    ensures forall n :: n != t.name ==> GetTool(Register(r, t), n) == GetTool(r, n)
  {
    forall n
      ensures GetTool(Register(r, t), n) == if n == t.name then Some(t) else GetTool(r, n)
    {
      RegisterFind(r, t, n);
    }
    if Valid(r) {
      RegisterKeepsValid(r, t);
    }
  }

  /** Where each name is found after `register`. */
  lemma RegisterFind(r: Registry, t: Tool, n: string)
    ensures var i := Find(r.tools, t.name);
            Find(Register(r, t).tools, n) == if n == t.name then (if i == -1 then |r.tools| else i) else Find(r.tools, n)
  {
    if Find(r.tools, t.name) == -1 {
      FindAppend(r.tools, t, n);
    } else {
      FindAgrees(r.tools, Register(r, t).tools, n);
    }
  }

  lemma RegisterKeepsValid(r: Registry, t: Tool)
    requires Valid(r)
    ensures Valid(Register(r, t))
  {
    var i := Find(r.tools, t.name);
    var u := Register(r, t).tools;
    if i == -1 {
      assert forall j :: 0 <= j < |r.tools| ==> u[j] == r.tools[j];
    }
  }

  /**
   * Where `register` puts the tool: a name not yet registered goes last;
   * a registered name keeps its position, and no other position changes.
   */
  lemma RegisterPlacement(r: Registry, t: Tool)
    ensures t.name !in GetToolNames(r) ==> Register(r, t).tools == r.tools + [t]
    ensures t.name in GetToolNames(r) ==>
              var i := Find(r.tools, t.name);
              && |Register(r, t).tools| == |r.tools|
              && r.tools[i].name == t.name
              && Register(r, t).tools[i] == t
              && forall j :: 0 <= j < |r.tools| && j != i ==> Register(r, t).tools[j] == r.tools[j]
  {
  }

  /**
   * `register` in terms of the listings: a new name puts the tool, its
   * name and its schema at the end of each; a registered name keeps every
   * listing's order, the tool and its schema replaced at the name's place.
   */
  lemma RegisterListing(r: Registry, t: Tool)
    ensures t.name !in GetToolNames(r) ==>
              && GetAllTools(Register(r, t)) == GetAllTools(r) + [t]
              && GetToolNames(Register(r, t)) == GetToolNames(r) + [t.name]
              && GetToolSchemas(Register(r, t)) == GetToolSchemas(r) + [SchemaOf(t)]
    ensures t.name in GetToolNames(r) ==>
              var i := Find(r.tools, t.name);
              && GetAllTools(Register(r, t)) == GetAllTools(r)[i := t]
              && GetToolNames(Register(r, t)) == GetToolNames(r)
              && GetToolSchemas(Register(r, t)) == GetToolSchemas(r)[i := SchemaOf(t)]
  {
    var i := Find(r.tools, t.name);
    if i == -1 {
      MapSeqAppend(NameOf, r.tools, t);
      MapSeqAppend(SchemaOf, r.tools, t);
    } else {
      MapSeqUpdate(NameOf, r.tools, i, t);
      MapSeqUpdate(SchemaOf, r.tools, i, t);
      assert MapSeq(NameOf, r.tools)[i := t.name] == MapSeq(NameOf, r.tools);
    }
  }

  /** `unregister`: removes the tool named `name` if there is one and is a no-op otherwise. */
  function Unregister(r: Registry, name: string): (reg: Registry)
    ensures name !in GetToolNames(r) ==> reg == r
    ensures name in GetToolNames(r) ==> |reg.tools| == |r.tools| - 1
    ensures Valid(r) ==> name !in GetToolNames(reg)
  {
    var i := Find(r.tools, name);
    if i == -1 then r
    else
      var u := r.tools[..i] + r.tools[i + 1..];
      assert forall j :: 0 <= j < |u| ==> u[j] == r.tools[if j < i then j else j + 1];
      Registry(u)
  }

  /**
   * After `unregister` the name no longer resolves, every other name
   * resolves as before, and names stay distinct.
   */
  lemma UnregisterLookup(r: Registry, name: string)
    requires Valid(r)
    ensures Valid(Unregister(r, name))
    ensures GetTool(Unregister(r, name), name).None?
    ensures forall n :: n != name ==> GetTool(Unregister(r, name), n) == GetTool(r, n)
  {
    var i := Find(r.tools, name);
    if i != -1 {
      var u := r.tools[..i] + r.tools[i + 1..];
      assert Unregister(r, name) == Registry(u);
      RemoveKeepsValid(r.tools, i);
      forall n | n != name
        ensures GetTool(Registry(u), n) == GetTool(r, n)
      {
        GetToolRemove(r.tools, i, n);
      }
    }
  }

  /** Cutting one tool out of a list with distinct names leaves the names distinct. */
  lemma RemoveKeepsValid(ts: seq<Tool>, i: int)
    requires Valid(Registry(ts)) && 0 <= i < |ts|
    ensures Valid(Registry(ts[..i] + ts[i + 1..]))
  {
    var u := ts[..i] + ts[i + 1..];
    assert forall j :: 0 <= j < |u| ==> u[j] == ts[if j < i then j else j + 1];
  }

  /** An absent name leaves the registry as it is; a present one is cut out, the rest keeping their order. */
  lemma UnregisterPlacement(r: Registry, name: string)
    ensures name !in GetToolNames(r) ==> Unregister(r, name) == r
    ensures name in GetToolNames(r) ==>
              var i := Find(r.tools, name);
              && r.tools[i].name == name
              && Unregister(r, name).tools == r.tools[..i] + r.tools[i + 1..]
              && |Unregister(r, name).tools| == |r.tools| - 1
  {
  }

  /**
   * `unregister` in terms of the listings: an absent name changes none of
   * them; a registered name's entry is cut out of each, the others keeping
   * their order.
   */
  lemma UnregisterListing(r: Registry, name: string)
    ensures name !in GetToolNames(r) ==>
              && GetAllTools(Unregister(r, name)) == GetAllTools(r)
              && GetToolNames(Unregister(r, name)) == GetToolNames(r)
              && GetToolSchemas(Unregister(r, name)) == GetToolSchemas(r)
    ensures name in GetToolNames(r) ==>
              var i := Find(r.tools, name);
              && GetAllTools(Unregister(r, name)) == GetAllTools(r)[..i] + GetAllTools(r)[i + 1..]
              && GetToolNames(Unregister(r, name)) == GetToolNames(r)[..i] + GetToolNames(r)[i + 1..]
              && GetToolSchemas(Unregister(r, name)) == GetToolSchemas(r)[..i] + GetToolSchemas(r)[i + 1..]
  {
    var i := Find(r.tools, name);
    assert name in GetToolNames(r) <==> i != -1 by {
      assert GetTool(r, name).Some? <==> i != -1;
    }
    if i != -1 {
      assert Unregister(r, name) == Registry(r.tools[..i] + r.tools[i + 1..]);
      MapSeqRemove(NameOf, r.tools, i);
      MapSeqRemove(SchemaOf, r.tools, i);
    }
  }

  /** The invariant read off the listing: names are distinct exactly when `get_tool_names` repeats none. */
  lemma ValidIffDistinctNames(r: Registry)
    ensures Valid(r) <==> forall i, j :: 0 <= i < j < |GetToolNames(r)| ==> GetToolNames(r)[i] != GetToolNames(r)[j]
  {
    assert forall i :: 0 <= i < |r.tools| ==> GetToolNames(r)[i] == r.tools[i].name;
  }

  const NotFoundPrefix := "Tool '"
  const NotFoundSuffix := "' not found in registry"

  /**
   * `execute_tool(self, tool_name, **kwargs)` binds `self` and `tool_name`
   * itself, so a keyword argument with either name collides with them.
   */
  predicate ClashesWithDispatch(args: Args) {
    "tool_name" in args || "self" in args
  }

  /** The binding error for a colliding keyword; `tool_name` is named when both collide. */
  function DuplicateArgumentMessage(args: Args): string {
    var key := if "tool_name" in args then "tool_name" else "self";
    "ToolRegistry.execute_tool() got multiple values for argument '" + key + "'"
  }

  /**
   * `execute_tool`: a keyword colliding with its own parameters raises the
   * binding error before any lookup; otherwise an unregistered name raises
   * the not-found error, whatever the registry holds, and a registered name
   * runs that tool's action on the arguments.
   */
  function ExecuteTool(r: Registry, name: string, args: Args): (o: ToolOutcome)
    ensures ClashesWithDispatch(args) ==> o == Raised(DuplicateArgumentMessage(args))
    ensures !ClashesWithDispatch(args) && name !in GetToolNames(r) ==> o == Raised(NotFoundPrefix + name + NotFoundSuffix)
    ensures !ClashesWithDispatch(args) && name in GetToolNames(r) ==> o == GetTool(r, name).value.action(args)
  {
    if ClashesWithDispatch(args) then Raised(DuplicateArgumentMessage(args))
    else
      match GetTool(r, name)
      case None => Raised(NotFoundPrefix + name + NotFoundSuffix)
      case Some(t) => t.action(args)
  }

  /**
   * Unregistering a name makes its dispatch fail, on every registry: with
   * the not-found error, or with the binding error when the arguments
   * collide with `execute_tool`'s own parameters.
   */
  lemma UnregisteredDispatchFails(r: Registry, name: string, args: Args)
    requires Valid(r)
    ensures !ClashesWithDispatch(args) ==>
              ExecuteTool(Unregister(r, name), name, args) == Raised(NotFoundPrefix + name + NotFoundSuffix)
    ensures ClashesWithDispatch(args) ==>
              ExecuteTool(Unregister(r, name), name, args) == Raised(DuplicateArgumentMessage(args))
  {
    UnregisterLookup(r, name);
  }

  /** Registering a tool under a name not yet present appends it. */
  lemma RegisterFresh(r: Registry, t: Tool)
    requires forall j :: 0 <= j < |r.tools| ==> r.tools[j].name != t.name
    ensures Register(r, t) == Registry(r.tools + [t])
  {
    assert Find(r.tools, t.name) == -1;
  }

  /** The process-wide registry: the three built-in tools, in registration order. */
  function DefaultRegistry(eval: string -> EvalResult): (r: Registry)
    ensures Valid(r)
    ensures GetToolNames(r) == ["check_transaction_status", "get_weather", "calculate"]
  {
    var r := Registry([TransactionTool, WeatherTool, CalculateTool(eval)]);
    assert GetToolNames(r) == [r.tools[0].name, r.tools[1].name, r.tools[2].name];
    r
  }

  /** The default registry is what registering the three built-in tools, in that order, on an empty registry gives. */
  lemma DefaultRegistryRegistered(eval: string -> EvalResult)
    ensures Register(Register(Register(Empty, TransactionTool), WeatherTool), CalculateTool(eval)) == DefaultRegistry(eval)
  {
    var t, w, c := TransactionTool, WeatherTool, CalculateTool(eval);
    calc {
      Register(Register(Register(Empty, t), w), c);
      == { RegisterFresh(Empty, t); assert [] + [t] == [t]; }
      Register(Register(Registry([t]), w), c);
      == { RegisterFresh(Registry([t]), w); assert [t] + [w] == [t, w]; }
      Register(Registry([t, w]), c);
      == { RegisterFresh(Registry([t, w]), c); assert [t, w] + [c] == [t, w, c]; }
      Registry([t, w, c]);
    }
  }

  /** In a registry with distinct names, each tool's name resolves to that tool. */
  lemma GetToolAt(r: Registry, i: int)
    requires Valid(r) && 0 <= i < |r.tools|
    ensures GetTool(r, r.tools[i].name) == Some(r.tools[i])
  {
  }

  /** The calculator dispatched with exactly an expression string answers with the calculation. */
  lemma CalculateDispatch(eval: string -> EvalResult, e: string)
    ensures ExecuteTool(DefaultRegistry(eval), "calculate", map["expression" := Str(e)]) == Returned(Calculate(e, eval))
  {
    var args := map["expression" := Str(e)];
    assert args.Keys == {"expression"} && args["expression"] == Str(e);
    assert ExecuteTool(DefaultRegistry(eval), "calculate", args) == CalculateAction(args, eval) by {
      DefaultDispatch(eval, args);
    }
    assert CalculateAction(args, eval) == Returned(CalculateAny(Str(e), eval));
  }

  /** Each default name dispatches to its built-in action, unless the arguments collide with `execute_tool`'s own parameters. */
  lemma DefaultDispatch(eval: string -> EvalResult, args: Args)
    ensures !ClashesWithDispatch(args) ==>
              && ExecuteTool(DefaultRegistry(eval), "check_transaction_status", args) == TransactionAction(args)
              && ExecuteTool(DefaultRegistry(eval), "get_weather", args) == WeatherAction(args)
              && ExecuteTool(DefaultRegistry(eval), "calculate", args) == CalculateAction(args, eval)
  {
    var r := DefaultRegistry(eval);
    GetToolAt(r, 0);
    GetToolAt(r, 1);
    GetToolAt(r, 2);
  }
}

=== FILE: store.dfy ===
/**
 * The agent's session map (`Agent.sessions` in src/agent.py) with
 * get-or-create, history lookup, deletion and listing.
 */
module SessionStore {
  import opened Base
  import opened Models
  import opened Conversation

  type Store = map<string, Session>

  /** Every session is filed under its own id. */
  ghost predicate WellKeyed(st: Store) {
    forall k :: k in st ==> st[k].id == k
  }

  /** The store after a lookup, and the id of the session the lookup resolved to. */
  datatype Resolved = Resolved(store: Store, id: string)

  /** A session id counts as given only when it is present and non-empty. */
  predicate Given(sessionId: Option<string>) {
    sessionId.Some? && sessionId.value != ""
  }

  /**
   * `_get_or_create_session`: a given id that is known resolves to its
   * stored session; otherwise a new session, with the prompt, is filed
   * under the given id or, when none is given, under `freshId` (the
   * generated UUID).  Either way the id resolved to is in the store.
   */
  function GetOrCreate(st: Store, sessionId: Option<string>, prompt: Option<string>, freshId: string, maxHistory: int, now: nat): (r: Resolved)
    requires freshId !in st
    ensures r.id in r.store
    ensures WellKeyed(st) ==> WellKeyed(r.store)
  {
    if Given(sessionId) && sessionId.value in st then
      Resolved(st, sessionId.value)
    else
      var id := if Given(sessionId) then sessionId.value else freshId;
      Resolved(st[id := NewSession(id, prompt, maxHistory, now)], id)
  }

  /**
   * The cases of a lookup: a known given id leaves the store unchanged
   * (the prompt is ignored); otherwise exactly one key, the given id or
   * else `freshId`, is added, holding a new session, and every existing
   * session stays as it was.
   */
  lemma GetOrCreateCases(st: Store, sessionId: Option<string>, prompt: Option<string>, freshId: string, maxHistory: int, now: nat)
    requires freshId !in st
    ensures var r := GetOrCreate(st, sessionId, prompt, freshId, maxHistory, now);
            Given(sessionId) && sessionId.value in st ==> r.store == st && r.id == sessionId.value
    ensures var r := GetOrCreate(st, sessionId, prompt, freshId, maxHistory, now);
            !(Given(sessionId) && sessionId.value in st) ==>
              && r.id == (if Given(sessionId) then sessionId.value else freshId)
              && r.id !in st
              && r.store.Keys == st.Keys + {r.id}
              && |r.store| == |st| + 1
              && r.store[r.id] == NewSession(r.id, prompt, maxHistory, now)
              && forall k :: k in st ==> r.store[k] == st[k]
  {
  }

  /** Looking up the id a lookup resolved to is a no-op: the same session, the same store. */
  lemma GetOrCreateIdempotent(st: Store, sessionId: Option<string>, prompt: Option<string>, freshId: string,
                              prompt2: Option<string>, freshId2: string, maxHistory: int, now: nat, now2: nat)
    requires freshId !in st && freshId != ""
    requires freshId2 !in GetOrCreate(st, sessionId, prompt, freshId, maxHistory, now).store
    ensures var r1 := GetOrCreate(st, sessionId, prompt, freshId, maxHistory, now);
            GetOrCreate(r1.store, Some(r1.id), prompt2, freshId2, maxHistory, now2) == r1
  {
  }

  /** `get_session_history`: absent exactly when the id is unknown, otherwise that session's snapshot. */
  function GetSessionHistory(st: Store, id: string): (h: Option<History>)
    ensures h.None? <==> id !in st
    ensures h.Some? ==> h.value.messages == st[id].messages && h.value.sessionId == st[id].id
    ensures h.Some? ==> h.value.createdAt == st[id].createdAt && h.value.updatedAt == st[id].updatedAt
    ensures h.Some? ==> h.value == ToHistory(st[id])
    ensures h.Some? && WellKeyed(st) ==> h.value.sessionId == id
  {
    if id in st then Some(ToHistory(st[id])) else None
  }

  datatype Cleared = Cleared(removed: bool, store: Store)

  /**
   * `clear_session`: reports true and removes exactly that key iff it is
   * present; otherwise reports false and leaves the store unchanged.
   */
  function ClearSession(st: Store, id: string): (r: Cleared)
    ensures r.removed <==> id in st
    ensures r.store.Keys == st.Keys - {id}
    ensures forall k :: k in r.store ==> r.store[k] == st[k]
    ensures !r.removed ==> r.store == st
    ensures WellKeyed(st) ==> WellKeyed(r.store)
  {
    if id in st then Cleared(true, st - {id}) else Cleared(false, st)
  }

  /** `list_sessions`: every known id exactly once, in some order. */
  method ListSessions(st: Store) returns (ids: seq<string>)
    ensures |ids| == |st|
    ensures forall k :: k in st <==> k in ids
    ensures forall i, j :: 0 <= i < j < |ids| ==> ids[i] != ids[j]
  {
    var rest := st.Keys;
    ids := [];
    while rest != {}
      invariant rest <= st.Keys
      invariant forall k :: k in st ==> (k in rest <==> k !in ids)
      invariant forall k :: k in ids ==> k in st
      invariant forall i, j :: 0 <= i < j < |ids| ==> ids[i] != ids[j]
      invariant |ids| + |rest| == |st.Keys|
      decreases rest
    {
      var k :| k in rest;
      ids := ids + [k];
      rest := rest - {k};
    }
  }
}

=== FILE: tools.dfy ===
/**
 * The built-in tools of src/tools.py: a transaction-status lookup, a
 * weather lookup with Celsius to Fahrenheit conversion, and the
 * allow-list gate in front of the arithmetic evaluator.
 */
module BuiltinTools {
  import opened Base
  import opened Json

  /** What invoking a tool action yields: a returned value, or a raised exception with its text. */
  datatype ToolOutcome = Returned(value: Value) | Raised(message: string)

  /**
   * A tool: name, description, the JSON-schema object describing its
   * parameters, and its action over keyword arguments.
   */
  datatype Tool = Tool(name: string, description: string, parameters: Value, action: Args -> ToolOutcome)

  // ---------------------------------------------------------------------
  // Keyword-argument binding (`tool.execute(**kwargs)`)
  // ---------------------------------------------------------------------

  const UnexpectedArgumentMessage := "execute() got an unexpected keyword argument"
  const MissingArgumentMessage := "execute() missing a required argument"

  /**
   * Binding keyword arguments to a signature with parameter names
   * `params`, of which `required` have no default: an unknown keyword is
   * reported first, then a missing required one.
   */
  function BindError(args: Args, params: set<string>, required: set<string>): (e: Option<string>)
    ensures e.None? <==> args.Keys <= params && required <= args.Keys
  {
    if !(args.Keys <= params) then Some(UnexpectedArgumentMessage)
    else if !(required <= args.Keys) then Some(MissingArgumentMessage)
    else None
  }

  // ---------------------------------------------------------------------
  // check_transaction_status
  // ---------------------------------------------------------------------

  datatype Transaction = Transaction(status: string, amount: real, date: string)

  /** The fixed transaction table. */
  const Transactions: map<string, Transaction> := map[
    "TXN-001" := Transaction("completed", 150.00, "2024-01-15"),
    "TXN-002" := Transaction("pending", 250.50, "2024-01-16"),
    "TXN-003" := Transaction("failed", 75.25, "2024-01-14")
  ]

  /**
   * The transaction lookup: a known id yields its table entry together
   * with the id; any other id yields status "not_found", the id echoed,
   * and a message naming it.
   */
  function CheckTransactionStatus(id: string): (r: Value)
    ensures r.Obj? && "transaction_id" in r.fields && "status" in r.fields
    ensures r.fields["transaction_id"] == Str(id)
    ensures r.fields["status"] == Str("not_found") <==> id !in Transactions
    ensures id in Transactions ==>
              && r.fields.Keys == {"transaction_id", "status", "amount", "date"}
              && r.fields["status"] == Str(Transactions[id].status)
              && r.fields["amount"] == Num(Transactions[id].amount)
              && r.fields["date"] == Str(Transactions[id].date)
    ensures id !in Transactions ==>
              && r.fields.Keys == {"transaction_id", "status", "message"}
              && r.fields["message"] == Str("Transaction " + id + " not found")
  {
    if id in Transactions then
      var t := Transactions[id];
      Obj(map["transaction_id" := Str(id), "status" := Str(t.status), "amount" := Num(t.amount), "date" := Str(t.date)])
    else
      Obj(map["transaction_id" := Str(id), "status" := Str("not_found"), "message" := Str("Transaction " + id + " not found")])
  }

  /** Exactly the three table ids are found. */
  lemma TransactionTableIds(id: string)
    ensures CheckTransactionStatus(id).fields["status"] != Str("not_found") <==> id in {"TXN-001", "TXN-002", "TXN-003"}
  {
  }

  /** Python's name for the type of a JSON value, as error messages print it. */
  function TypeName(v: Value): string {
    match v
    case Null => "NoneType"
    case Bool(_) => "bool"
    case Num(x) => if x.Floor as real == x then "int" else "float"
    case Str(_) => "str"
    case Arr(_) => "list"
    case Obj(_) => "dict"
  }

  /** Whether Python can hash the value: lists and dicts cannot be dictionary keys or set members. */
  predicate Hashable(v: Value) {
    !v.Arr? && !v.Obj?
  }

  /** The text of the exception raised when an unhashable value is looked up. */
  function UnhashableMessage(typeName: string): string {
    "unhashable type: '" + typeName + "'"
  }

  function DigitChar(d: int): char
    requires 0 <= d < 10
  {
    "0123456789"[d]
  }

  /** The decimal digits of a natural number, without leading zeros. */
  function NatText(n: nat): (t: string)
    ensures |t| >= 1
    ensures forall i :: 0 <= i < |t| ==> '0' <= t[i] <= '9'
  {
    if n < 10 then [DigitChar(n)] else NatText(n / 10) + [DigitChar(n % 10)]
  }

  /** Python's `str()` of a scalar JSON value; a non-integral number is written as a bare marker. */
  function ScalarText(v: Value): string {
    match v
    case Null => "None"
    case Bool(b) => if b then "True" else "False"
    case Num(x) =>
      if x.Floor as real != x then "<number>"
      else if x < 0.0 then "-" + NatText(-x.Floor)
      else NatText(x.Floor)
    case Str(s) => s
    case _ => ""
  }

  /**
   * The lookup on an id of any JSON type: an unhashable id makes the
   * membership test raise; any other non-string id is not in the table and
   * is echoed back as not found.
   */
  function CheckAnyTransactionStatus(id: Value): (o: ToolOutcome)
    ensures id.Str? ==> o == Returned(CheckTransactionStatus(id.s))
    ensures !Hashable(id) ==> o == Raised(UnhashableMessage(TypeName(id)))
    ensures Hashable(id) && !id.Str? ==>
              o == Returned(Obj(map["transaction_id" := id, "status" := Str("not_found"),
                                    "message" := Str("Transaction " + ScalarText(id) + " not found")]))
  {
    match id
    case Str(s) => Returned(CheckTransactionStatus(s))
    case Arr(_) => Raised(UnhashableMessage(TypeName(id)))
    case Obj(_) => Raised(UnhashableMessage(TypeName(id)))
    case _ => Returned(Obj(map["transaction_id" := id, "status" := Str("not_found"),
                               "message" := Str("Transaction " + ScalarText(id) + " not found")]))
  }

  /** Only a string id from the table is ever found. */
  lemma OnlyTableIdsFound(id: Value)
    ensures var o := CheckAnyTransactionStatus(id);
            o.Returned? && o.value.Obj? && "status" in o.value.fields && o.value.fields["status"] != Str("not_found")
            <==> id.Str? && id.s in Transactions
  {
    if id.Str? {
      TransactionTableIds(id.s);
    }
  }

  /**
   * `CheckTransactionStatus.execute(**kwargs)`: the keyword arguments are
   * bound first (a binding failure raises); then the id is looked up.
   */
  function TransactionAction(args: Args): (o: ToolOutcome)
    ensures BindError(args, {"transaction_id"}, {"transaction_id"}).Some? ==>
              o == Raised(BindError(args, {"transaction_id"}, {"transaction_id"}).value)
    ensures args.Keys == {"transaction_id"} ==> o == CheckAnyTransactionStatus(args["transaction_id"])
  {
    match BindError(args, {"transaction_id"}, {"transaction_id"})
    case Some(e) => Raised(e)
    case None => CheckAnyTransactionStatus(args["transaction_id"])
  }

  /** The JSON-Schema of the transaction tool's parameters. */
  const TransactionParameters: Value :=
    Obj(map[
      "type" := Str("object"),
      "properties" := Obj(map[
        "transaction_id" := Obj(map["type" := Str("string"), "description" := Str("The unique transaction ID to check")])]),
      "required" := Arr([Str("transaction_id")])])

  const TransactionTool := Tool(
    "check_transaction_status",
    "Check the status of a transaction by its ID",
    TransactionParameters,
    TransactionAction)

  // ---------------------------------------------------------------------
  // get_weather
  // ---------------------------------------------------------------------

  datatype Weather = Weather(temp: int, condition: string, humidity: int)

  /** The fixed weather table, keyed by lower-case location, temperatures in Celsius. */
  const WeatherTable: map<string, Weather> := map[
    "san francisco" := Weather(18, "Partly cloudy", 65),
    "new york" := Weather(12, "Sunny", 45),
    "london" := Weather(10, "Rainy", 80),
    "tokyo" := Weather(22, "Clear", 50)
  ]

  function LowerChar(c: char): char {
    if 'A' <= c <= 'Z' then (c as int + 32) as char else c
  }

  /** `str.lower` on ASCII letters. */
  function Lower(s: string): (r: string)
    ensures |r| == |s|
    ensures forall i :: 0 <= i < |s| ==> r[i] == LowerChar(s[i])
  {
    seq(|s|, i requires 0 <= i < |s| => LowerChar(s[i]))
  }

  lemma LowerIdempotent(s: string)
    ensures Lower(Lower(s)) == Lower(s)
  {
  }

  function ToFahrenheit(celsius: real): real {
    celsius * 9.0 / 5.0 + 32.0
  }

  /** An integer Celsius reading converts to a whole number of tenths of a degree Fahrenheit. */
  lemma FahrenheitInTenths(celsius: int)
    ensures ToFahrenheit(celsius as real) == (18 * celsius + 320) as real / 10.0
  {
  }

  /** `round(x, 1)` on exact reals, rounding half to even on the tenths digit. */
  function RoundTenth(x: real): real {
    var y := x * 10.0;
    var f := y.Floor;
    var d := y - f as real;
    var n := if d < 0.5 then f else if d > 0.5 then f + 1 else if f % 2 == 0 then f else f + 1;
    n as real / 10.0
  }

  /** Rounding to one decimal leaves a value that already has at most one decimal unchanged. */
  lemma RoundTenthExact(n: int)
    ensures RoundTenth(n as real / 10.0) == n as real / 10.0
  {
    var x := n as real / 10.0;
    assert x * 10.0 == n as real;
    assert (n as real).Floor == n;
  }

  /** The reported temperature: the table's Celsius value, converted when the unit is "fahrenheit", rounded to one decimal. */
  function ReportedTemperature(celsius: int, unit: Value): real {
    RoundTenth(if unit == Str("fahrenheit") then ToFahrenheit(celsius as real) else celsius as real)
  }

  /** On the table's integer readings the rounding is exact: Fahrenheit is C*9/5+32, any other unit is C itself. */
  lemma ReportedTemperatureExact(celsius: int, unit: Value)
    ensures unit == Str("fahrenheit") ==> ReportedTemperature(celsius, unit) == ToFahrenheit(celsius as real)
    ensures unit != Str("fahrenheit") ==> ReportedTemperature(celsius, unit) == celsius as real
  {
    if unit == Str("fahrenheit") {
      FahrenheitInTenths(celsius);
      RoundTenthExact(18 * celsius + 320);
    } else {
      assert celsius as real == (10 * celsius) as real / 10.0;
      RoundTenthExact(10 * celsius);
    }
  }

  /**
   * The weather lookup: the location is lower-cased for the table lookup
   * and echoed as given; a known location reports the converted
   * temperature, the unit as given, the condition and the humidity; an
   * unknown one reports an error naming it.
   */
  function GetWeather(location: string, unit: Value): (r: Value)
    ensures r.Obj? && "location" in r.fields && r.fields["location"] == Str(location)
    ensures "error" in r.fields <==> Lower(location) !in WeatherTable
    ensures Lower(location) in WeatherTable ==>
              var w := WeatherTable[Lower(location)];
              && r.fields.Keys == {"location", "temperature", "unit", "condition", "humidity"}
              && r.fields["temperature"] == Num(if unit == Str("fahrenheit") then ToFahrenheit(w.temp as real) else w.temp as real)
              && r.fields["unit"] == unit
              && r.fields["condition"] == Str(w.condition)
              && r.fields["humidity"] == Num(w.humidity as real)
    ensures Lower(location) !in WeatherTable ==>
              && r.fields.Keys == {"location", "error"}
              && r.fields["error"] == Str("Weather data not available for " + location)
  {
    var key := Lower(location);
    if key in WeatherTable then
      var w := WeatherTable[key];
      ReportedTemperatureExact(w.temp, unit);
      Obj(map[
        "location" := Str(location),
        "temperature" := Num(ReportedTemperature(w.temp, unit)),
        "unit" := unit,
        "condition" := Str(w.condition),
        "humidity" := Num(w.humidity as real)])
    else
      Obj(map["location" := Str(location), "error" := Str("Weather data not available for " + location)])
  }

  /** The lookup is case-insensitive: locations equal up to case report the same weather. */
  lemma WeatherCaseInsensitive(a: string, b: string, unit: Value)
    requires Lower(a) == Lower(b)
    ensures var ra := GetWeather(a, unit);
            var rb := GetWeather(b, unit);
            ra.fields - {"location", "error"} == rb.fields - {"location", "error"}
  {
  }

  /** London at 10 degrees Celsius is reported as 50 degrees Fahrenheit, whatever the case of its name. */
  lemma LondonInFahrenheit()
    ensures var r := GetWeather("London", Str("fahrenheit"));
            "temperature" in r.fields && r.fields["temperature"] == Num(50.0)
  {
    assert Lower("London") == "london";
  }

  /**
   * `GetWeather.execute(**kwargs)`: the keyword arguments are bound first,
   * `unit` defaulting to "celsius"; a location that is not a string has no
   * `lower` method, so the lookup raises.
   */
  function WeatherAction(args: Args): (o: ToolOutcome)
    ensures BindError(args, {"location", "unit"}, {"location"}).Some? ==>
              o == Raised(BindError(args, {"location", "unit"}, {"location"}).value)
    ensures BindError(args, {"location", "unit"}, {"location"}).None? ==>
              var unit := if "unit" in args then args["unit"] else Str("celsius");
              var location := args["location"];
              && (location.Str? ==> o == Returned(GetWeather(location.s, unit)))
              && (!location.Str? ==> o == Raised("'" + TypeName(location) + "' object has no attribute 'lower'"))
  {
    match BindError(args, {"location", "unit"}, {"location"})
    case Some(e) => Raised(e)
    case None =>
      var unit := if "unit" in args then args["unit"] else Str("celsius");
      match args["location"]
      case Str(location) => Returned(GetWeather(location, unit))
      case v => Raised("'" + TypeName(v) + "' object has no attribute 'lower'")
  }

  /** The JSON-Schema of the weather tool's parameters. */
  const WeatherParameters: Value :=
    Obj(map[
      "type" := Str("object"),
      "properties" := Obj(map[
        "location" := Obj(map["type" := Str("string"), "description" := Str("City name or location")]),
        "unit" := Obj(map[
          "type" := Str("string"),
          "enum" := Arr([Str("celsius"), Str("fahrenheit")]),
          "description" := Str("Temperature unit"),
          "default" := Str("celsius")])]),
      "required" := Arr([Str("location")])])

  const WeatherTool := Tool(
    "get_weather",
    "Get current weather information for a location",
    WeatherParameters,
    WeatherAction)

  // ---------------------------------------------------------------------
  // calculate
  // ---------------------------------------------------------------------

  /** The characters the evaluator may see. */
  const AllowedChars: set<char> := {'0', '1', '2', '3', '4', '5', '6', '7', '8', '9', '+', '-', '*', '/', '(', ')', '.', ' '}

  predicate AllAllowed(expression: string) {
    forall i :: 0 <= i < |expression| ==> expression[i] in AllowedChars
  }

  /** The evaluator behind the gate: a value, or the text of the exception it raised. */
  datatype EvalResult = Evaluated(value: Value) | EvalFailed(message: string)

  const InvalidCharactersMessage := "Invalid characters in expression. Only numbers and +, -, *, /, (, ) are allowed."

  /**
   * The calculator: an expression with any character outside the
   * allow-list is answered with the invalid-characters error without
   * evaluation; otherwise the evaluator's value is the result, and its
   * failure becomes a calculation error.
   */
  function Calculate(expression: string, eval: string -> EvalResult): (r: Value)
    ensures r.Obj? && "expression" in r.fields && r.fields["expression"] == Str(expression)
    ensures !AllAllowed(expression) ==>
              r.fields == map["expression" := Str(expression), "error" := Str(InvalidCharactersMessage)]
    ensures AllAllowed(expression) ==>
              match eval(expression)
              case Evaluated(v) => r.fields == map["expression" := Str(expression), "result" := v]
              case EvalFailed(msg) => r.fields == map["expression" := Str(expression), "error" := Str("Calculation error: " + msg)]
  {
    if !AllAllowed(expression) then
      Obj(map["expression" := Str(expression), "error" := Str(InvalidCharactersMessage)])
    else
      match eval(expression)
      case Evaluated(v) => Obj(map["expression" := Str(expression), "result" := v])
      case EvalFailed(msg) => Obj(map["expression" := Str(expression), "error" := Str("Calculation error: " + msg)])
  }

  /** A rejected expression is never evaluated: the answer is the same whatever the evaluator. */
  lemma CalculateGateIgnoresEvaluator(expression: string, e1: string -> EvalResult, e2: string -> EvalResult)
    requires exists i :: 0 <= i < |expression| && expression[i] !in AllowedChars
    ensures Calculate(expression, e1) == Calculate(expression, e2)
    ensures "result" !in Calculate(expression, e1).fields
  {
  }

  // The calculator on an expression that is not a string: the gate
  // iterates it like any Python iterable (list items, dict keys), testing
  // each item's membership in the set of allowed one-character strings.

  /** `c in allowed_chars` for one item: true, false, or a raise for an unhashable item. */
  datatype Membership = Member | NotMember | Unhashable(typeName: string)

  function ItemMembership(v: Value): (m: Membership)
    ensures m == Member <==> v.Str? && |v.s| == 1 && v.s[0] in AllowedChars
    ensures m.Unhashable? <==> !Hashable(v)
  {
    match v
    case Str(c) => if |c| == 1 && c[0] in AllowedChars then Member else NotMember
    case Arr(_) => Unhashable("list")
    case Obj(_) => Unhashable("dict")
    case _ => NotMember
  }

  /** What the `all(...)` gate does over a sequence of items. */
  datatype Gate = Pass | Reject | GateRaised(message: string)

  /**
   * `all(c in allowed_chars for c in items)`: passes iff every item is an
   * allowed one-character string; otherwise the first item that is not
   * decides, rejecting when it is hashable and raising when it is not.
   */
  function GateItems(items: seq<Value>): (g: Gate)
    ensures g == Pass <==> forall i :: 0 <= i < |items| ==> ItemMembership(items[i]) == Member
    ensures forall k :: 0 <= k < |items| && ItemMembership(items[k]) != Member
                        && (forall j :: 0 <= j < k ==> ItemMembership(items[j]) == Member) ==>
              g == (if Hashable(items[k]) then Reject else GateRaised(UnhashableMessage(TypeName(items[k]))))
    decreases |items|
  {
    if |items| == 0 then Pass
    else
      match ItemMembership(items[0])
      case Member =>
        var g := GateItems(items[1..]);
        assert forall k :: 1 <= k < |items| ==> items[1..][k - 1] == items[k];
        g
      case NotMember => Reject
      case Unhashable(t) => GateRaised(UnhashableMessage(t))
  }

  const EvalTypeMessage := "eval() arg 1 must be a string, bytes or code object"

  /** The calculator's answer for an expression of any JSON type. */
  function CalculateAny(expression: Value, eval: string -> EvalResult): (r: Value)
    ensures expression.Str? ==> r == Calculate(expression.s, eval)
    ensures !expression.Str? ==> r.Obj? && r.fields.Keys == {"expression", "error"} && r.fields["expression"] == expression
    ensures expression.Arr? ==>
              match GateItems(expression.items)
              case Reject => r.fields["error"] == Str(InvalidCharactersMessage)
              case GateRaised(msg) => r.fields["error"] == Str("Calculation error: " + msg)
              case Pass => r.fields["error"] == Str("Calculation error: " + EvalTypeMessage)
    ensures expression.Obj? ==>
              r.fields["error"] == Str(if forall k :: k in expression.fields ==> |k| == 1 && k[0] in AllowedChars
                                       then "Calculation error: " + EvalTypeMessage
                                       else InvalidCharactersMessage)
    ensures expression.Null? || expression.Bool? || expression.Num? ==>
              r.fields["error"] == Str("Calculation error: '" + TypeName(expression) + "' object is not iterable")
  {
    match expression
    case Str(e) => Calculate(e, eval)
    case Arr(items) =>
      var error := match GateItems(items)
                   case Reject => InvalidCharactersMessage
                   case GateRaised(msg) => "Calculation error: " + msg
                   case Pass => "Calculation error: " + EvalTypeMessage;
      Obj(map["expression" := expression, "error" := Str(error)])
    case Obj(fields) =>
      var error := if forall k :: k in fields ==> |k| == 1 && k[0] in AllowedChars
                   then "Calculation error: " + EvalTypeMessage
                   else InvalidCharactersMessage;
      Obj(map["expression" := expression, "error" := Str(error)])
    case _ =>
      Obj(map["expression" := expression, "error" := Str("Calculation error: '" + TypeName(expression) + "' object is not iterable")])
  }

  /** Only a string ever reaches the evaluator: any other expression gets the same error whatever the evaluator. */
  lemma NonStringNeverEvaluated(expression: Value, e1: string -> EvalResult, e2: string -> EvalResult)
    requires !expression.Str?
    ensures CalculateAny(expression, e1) == CalculateAny(expression, e2)
    ensures "result" !in CalculateAny(expression, e1).fields
  {
  }

  /** Concrete non-string expressions the gate rejects: `["x"]`, `[5]` and `{"x": 1}`. */
  lemma NonStringRejected(eval: string -> EvalResult)
    ensures CalculateAny(Arr([Str("x")]), eval).fields["error"] == Str(InvalidCharactersMessage)
    ensures CalculateAny(Arr([Num(5.0)]), eval).fields["error"] == Str(InvalidCharactersMessage)
    ensures CalculateAny(Obj(map["x" := Num(1.0)]), eval).fields["error"] == Str(InvalidCharactersMessage)
  {
    assert GateItems([Str("x")]) == Reject;
    assert GateItems([Num(5.0)]) == Reject;
    assert "x" in map["x" := Num(1.0)] && "x"[0] !in AllowedChars;
  }

  /** `["1"]` passes the gate and then fails in `eval`. */
  lemma ListOfDigitReachesEval(eval: string -> EvalResult)
    ensures CalculateAny(Arr([Str("1")]), eval).fields["error"] == Str("Calculation error: " + EvalTypeMessage)
  {
    assert GateItems([Str("1")]) == Pass by {
      assert ItemMembership(Str("1")) == Member;
      assert [Str("1")][1..] == [];
    }
  }

  /** `[[1]]` raises on hashing its item. */
  lemma NestedListUnhashable(eval: string -> EvalResult)
    ensures CalculateAny(Arr([Arr([Num(1.0)])]), eval).fields["error"] == Str("Calculation error: " + UnhashableMessage("list"))
  {
    assert GateItems([Arr([Num(1.0)])]) == GateRaised(UnhashableMessage("list"));
  }

  /**
   * `Calculate.execute(**kwargs)`: the keyword arguments are bound first
   * (a binding failure raises); the answer itself never raises, since the
   * source catches every exception after binding.
   */
  function CalculateAction(args: Args, eval: string -> EvalResult): (o: ToolOutcome)
    ensures BindError(args, {"expression"}, {"expression"}).Some? ==>
              o == Raised(BindError(args, {"expression"}, {"expression"}).value)
    ensures args.Keys == {"expression"} ==> o == Returned(CalculateAny(args["expression"], eval))
  {
    match BindError(args, {"expression"}, {"expression"})
    case Some(e) => Raised(e)
    case None => Returned(CalculateAny(args["expression"], eval))
  }

  /** The JSON-Schema of the calculator's parameters. */
  const CalculateParameters: Value :=
    Obj(map[
      "type" := Str("object"),
      "properties" := Obj(map[
        "expression" := Obj(map[
          "type" := Str("string"),
          "description" := Str("Mathematical expression to evaluate (e.g., '2 + 2', '10 * 5')")])]),
      "required" := Arr([Str("expression")])])

  function CalculateTool(eval: string -> EvalResult): Tool {
    Tool(
      "calculate",
      "Perform mathematical calculations",
      CalculateParameters,
      args => CalculateAction(args, eval))
  }
}
